=== FILE: README.md ===
# Confluent-compatible resource logic of Apicurio Registry, in Dafny

This project models the decision logic that Apicurio Registry's
Confluent-compatible REST layer (`AbstractResource`) runs. That logic turns
a (subject, schema, references) submission into a registration or a lookup.
It also resolves version strings, answers state and existence questions, and
recognises the artifact types the API manages. A second, small part is the
integration-test proxy `RetryLimitingProxy`, which refuses the first `n`
requests and lets every later one through.

Everything is modelled functionally:

- The storage is an immutable value: a map from (group, artifact id) to the
  artifact's type and rules, plus one table of version rows in creation order.
- Java exceptions become a `Result` with one error constructor per exception
  class.
- Java `null` becomes `Option`.
- The collaborators the resource calls but does not define are
  function-valued fields of one `Collaborators` value:
  - SHA-256;
  - the type provider's canonicalizer and dereferencer;
  - the rules service, an oracle that names the violated rule or accepts;
  - the canonical-hash-mode switch.

Modules:

- `Types`: entities, errors and artifact type names.
- `JavaText`: `Integer.parseInt` and `String.valueOf(int)`.
- `RegistryStorage`: the storage contract the resource consumes.
- `References`: `parseReferences` and `resolveReferences`.
- `VersionStrings`: `parseVersionString` and the latest version.
- `Lifecycle`: state predicates, existence probes and the managed-type check.
- `Registration`: `createOrUpdateArtifact`.
- `Lookup`: `lookupSchema`.
- `Properties`: properties that relate a registration to later reads.
- `RetryProxy`: the retry-limiting proxy.

### Behaviour the model follows as written

- A numeric version string below -1 is an `ArtifactNotFound` error with
  message "Illegal version format: …", not a missing version. The method's
  documentation comment (`AbstractResource.java`, lines 246-255) promises an
  `IllegalArgumentException`. The model follows the code, and
  `Properties.NumericExamples` shows "-5" on a three-version subject.
- `"-0"` and `"+7"` parse as non-negative integers and pass through verbatim
  (`Properties.SignedExamples`).
- `isArtifactActive` reads the metadata first, so a missing artifact is an
  `ArtifactNotFound` error rather than `false`. The later existence test never
  changes the answer (`Lifecycle.IsArtifactActiveTrueIffActiveState`).
- `areAllSchemasDisabled` is an "any" predicate. It stops at the first
  DISABLED id, so an unknown id is an error only when it comes first.
- The Avro fallback compares the digest of each dereferenced stored version
  with the digest of the raw submitted schema.
- Two declared references with the same logical name collapse into one
  resolved entry. `resolveReferences` then reports "Unresolved reference"
  even when every target exists
  (`References.ResolveReferencesRejectsDuplicateNames`).
- "latest" uses the storage's default metadata read. The storage model lets
  the last version stand for the artifact whatever its state, so a DISABLED
  last version is still "latest" (`Properties.LatestExample`). In the real
  registry, which version the default read picks belongs to the storage
  engine; the model fixes it as the last row.
- A content-lookup miss is the storage's `ArtifactNotFoundException`,
  re-thrown unchanged, as the code does.
- In the Avro fallback, a stored version that fails to dereference before
  any match aborts the lookup with its parse error, which becomes an
  unprocessable entity; the original miss is re-raised only when the scan
  passes every version without a match.

## Model

| member | source | states |
|---|---|---|
| `Registration.CreateOrUpdateArtifact` | app/src/main/java/io/apicurio/registry/ccompat/rest/v7/impl/AbstractResource.java:81-105 | Reference errors propagate unchanged. Rules run in CREATE mode for a new subject and UPDATE mode otherwise. A violation leaves storage untouched. Success appends exactly one version holding the schema and touches no other artifact record. A new subject is created with the submitted artifact type and no rules of its own. |
| `Registration.ClassifyViolation` | app/src/main/java/io/apicurio/registry/ccompat/rest/v7/impl/AbstractResource.java:97-102 | A violated VALIDITY rule is unprocessable; every other rule type is a conflict that carries the rule type. |
| `Registration.ToArtifactReferences` | app/src/main/java/io/apicurio/registry/ccompat/rest/v7/impl/AbstractResource.java:84 | The rule request carries one reference bean per parsed reference, in order, with name, group, artifact and version copied. |
| `Lookup.LookupSchema` | app/src/main/java/io/apicurio/registry/ccompat/rest/v7/impl/AbstractResource.java:107-146 | Reference errors come first. Without normalisation the result is the exact content lookup's, a hit exactly when some version has the same SHA-256 and references. With normalisation the canonical path's result is returned, except that a schema parse error becomes an unprocessable entity with its message. An Avro canonical miss whose scan passes every version re-raises artifact-not-found, and a non-Avro canonical miss stays not-found. No Avro parse error escapes unclassified. |
| `Lookup.CanonicalLookup` | app/src/main/java/io/apicurio/registry/ccompat/rest/v7/impl/AbstractResource.java:115-137 | A canonical hit, and any canonical error other than artifact-not-found, is returned unchanged. A non-Avro miss is re-raised. An Avro artifact-not-found miss gives exactly the fallback's result for that miss. |
| `Lookup.DereferenceFallback` | app/src/main/java/io/apicurio/registry/ccompat/rest/v7/impl/AbstractResource.java:118-132 | Where the scan over the subject's labels stops decides the outcome. If it passes every version, the original miss is re-raised. If it stops on a version that fails to dereference, the result is that parse error. If it stops on a match, the result is that version's metadata. A returned version's dereferenced content has the raw schema's digest. |
| `Lookup.ScanStop` | app/src/main/java/io/apicurio/registry/ccompat/rest/v7/impl/AbstractResource.java:123-130 | The scan stops at the first label whose version fails to dereference or matches the raw schema's digest. Every label before it dereferences cleanly without matching. |
| `Lookup.ScanVersions` | app/src/main/java/io/apicurio/registry/ccompat/rest/v7/impl/AbstractResource.java:123-130 | The result is an error exactly when the scan stops on a dereference failure, and it carries that failure's message. It is that label exactly when the scan stops on a match. It is `None` exactly when the scan passes every label. |
| `Lookup.FallbackFinds` | app/src/main/java/io/apicurio/registry/ccompat/rest/v7/impl/AbstractResource.java:118-132 | If some version matches and every version before it dereferences cleanly, the fallback succeeds. |
| `Lookup.AvroFallbackFinds` | app/src/main/java/io/apicurio/registry/ccompat/rest/v7/impl/AbstractResource.java:115-132 | Take a normalised Avro lookup whose submission canonicalizes. If some stored version dereferences to the raw schema's digest and every version before it dereferences cleanly, the lookup succeeds. When canonical identity misses, the version returned is a dereferenced match. |
| `Lookup.EffectiveType` | app/src/main/java/io/apicurio/registry/ccompat/rest/v7/impl/AbstractResource.java:110 | A missing schema type means AVRO; a given type is used as is. |
| `Lookup.CanonicalizeFailureClassified` | app/src/main/java/io/apicurio/registry/ccompat/rest/v7/impl/AbstractResource.java:115-145 | When a normalised lookup's submission does not canonicalize under the stored type, an Avro artifact gives an unprocessable entity carrying the parse message. Any other type's parse failure propagates unchanged. |
| `Lookup.LookupDefaultsToAvro` | app/src/main/java/io/apicurio/registry/ccompat/rest/v7/impl/AbstractResource.java:110 | A lookup with no type behaves exactly as one with type AVRO. |
| `References.ParseReferences` | app/src/main/java/io/apicurio/registry/ccompat/rest/v7/impl/AbstractResource.java:230-240 | `null` gives the empty list. Otherwise the call succeeds if and only if every target version exists. On success there is one reference per input, in order, in the caller's group, with the stringified version. On failure the error is the lookup error of the first missing target. |
| `References.ParseEach` | app/src/main/java/io/apicurio/registry/ccompat/rest/v7/impl/AbstractResource.java:232-236 | The conversion succeeds exactly when no target is missing. On success there is one reference per input, in order, in the caller's group. |
| `References.ParseEachError` | app/src/main/java/io/apicurio/registry/ccompat/rest/v7/impl/AbstractResource.java:232-236 | A failed conversion carries the lookup error of the first missing target. |
| `References.ToDtos` | app/src/main/java/io/apicurio/registry/ccompat/rest/v7/impl/AbstractResource.java:152-159 | One reference per input, in order, carrying its subject, name, stringified version and the given group. |
| `References.VersionText` | app/src/main/java/io/apicurio/registry/ccompat/rest/v7/impl/AbstractResource.java:234 | A null version is the text "null". A present `int` version's text parses back to that version. It is the shortest such text: digits with no leading zero, or `-` and digits not starting with zero. |
| `References.ResolveReferences` | app/src/main/java/io/apicurio/registry/ccompat/rest/v7/impl/AbstractResource.java:148-170 | Null or empty input resolves to the empty map. The only failure is "Unresolved reference". Every resolved name is a declared reference name. |
| `References.ResolveReferencesAllOrNothing` | app/src/main/java/io/apicurio/registry/ccompat/rest/v7/impl/AbstractResource.java:161-166 | A single reference with a missing target rejects the whole list. |
| `References.ResolveReferencesSucceeds` | app/src/main/java/io/apicurio/registry/ccompat/rest/v7/impl/AbstractResource.java:161-166 | When every target exists and names are distinct, the call succeeds with exactly one entry per declared reference. Each name maps to the content of the version its reference points at. |
| `RegistryStorage.ResolveReferencesValue` | app/src/main/java/io/apicurio/registry/ccompat/rest/v7/impl/AbstractResource.java:161 | The storage's resolution maps a reference's name to its target version's content. This holds for any resolvable reference that no later resolvable reference with the same name overrides. |
| `References.ResolveReferencesRejectsDuplicateNames` | app/src/main/java/io/apicurio/registry/ccompat/rest/v7/impl/AbstractResource.java:161-166 | Two references sharing a name are rejected as unresolved. |
| `VersionStrings.GetLatestArtifactVersionForSubject` | app/src/main/java/io/apicurio/registry/ccompat/rest/v7/impl/AbstractResource.java:177-184 | The call succeeds exactly when the subject exists and has a version, and then returns the last version's label. Otherwise the error is version "latest" not found for that group and subject. |
| `VersionStrings.ResolveVersionString` | app/src/main/java/io/apicurio/registry/ccompat/rest/v7/impl/AbstractResource.java:256-273 | "latest" and "-1" give the latest version. Any other integer ≥ 0 passes through verbatim. An integer below -1 is an artifact-not-found "Illegal version format". Anything that is not an `int` is version-not-found. |
| `VersionStrings.ParseVersionString` | app/src/main/java/io/apicurio/registry/ccompat/rest/v7/impl/AbstractResource.java:256-275 | `then` is applied once, to the resolved version. It is never applied when resolution fails, and then the resolution error is returned. |
| `VersionStrings.ResolveNumericVersion` | app/src/main/java/io/apicurio/registry/ccompat/rest/v7/impl/AbstractResource.java:262-264 | Every non-negative `int`, as Java writes it, resolves to itself. |
| `VersionStrings.ResolveNegativeVersion` | app/src/main/java/io/apicurio/registry/ccompat/rest/v7/impl/AbstractResource.java:265-268 | Every `int` below -1 is an artifact-not-found error, never a missing version. |
| `VersionStrings.MinusOneIsLatest` | app/src/main/java/io/apicurio/registry/ccompat/rest/v7/impl/AbstractResource.java:258-266 | "-1" and "latest" select the same version in every storage. |
| `JavaText.ParseInt` | app/src/main/java/io/apicurio/registry/ccompat/rest/v7/impl/AbstractResource.java:262 | A parsed value lies in the 32-bit range. It comes from an optional sign and at least one digit. A negative value has a leading minus. The value itself is stated by `JavaText.ParseIntOfDigits`. |
| `JavaText.ParseIntOfDigits` | app/src/main/java/io/apicurio/registry/ccompat/rest/v7/impl/AbstractResource.java:262 | An optional sign followed by digits parses to the digits' decimal value, negated after `-`, when it fits in an `int`; otherwise it fails. |
| `JavaText.IntToString` | app/src/main/java/io/apicurio/registry/ccompat/rest/v7/impl/AbstractResource.java:155 | `String.valueOf(int)` writes a non-empty text that starts with `-` exactly for negative values and with a digit otherwise. It has no leading zero and never reads "-0": digits only for non-negative values, `-` and digits otherwise. |
| `JavaText.IntToStringCanonical` | app/src/main/java/io/apicurio/registry/ccompat/rest/v7/impl/AbstractResource.java:155 | Any text `Integer.parseInt` accepts with no `+`, no leading zero and no "-0" is exactly what `String.valueOf` writes for its value, so the text is unique. |
| `JavaText.ParseIntOfIntToString` | app/src/main/java/io/apicurio/registry/ccompat/rest/v7/impl/AbstractResource.java:262 | `Integer.parseInt` reads back every `int` that `String.valueOf` writes. |
| `Lifecycle.IsArtifactActive` | app/src/main/java/io/apicurio/registry/ccompat/rest/v7/impl/AbstractResource.java:172-175 | A missing artifact, or one with no version to stand for it, is an artifact-not-found error. Otherwise the result is true if and only if the stand-in version is ENABLED or DEPRECATED. |
| `Lifecycle.IsArtifactActiveTrueIffActiveState` | app/src/main/java/io/apicurio/registry/ccompat/rest/v7/impl/AbstractResource.java:173-174 | The call answers true exactly when the artifact exists and its state is active, so the existence test after the read is redundant. |
| `Lifecycle.ShouldFilterState` | app/src/main/java/io/apicurio/registry/ccompat/rest/v7/impl/AbstractResource.java:186-193 | With `deleted` set, every state is kept. Otherwise a state is kept exactly when it is ENABLED. |
| `Lifecycle.ShouldFilterStateNarrowerThanActive` | app/src/main/java/io/apicurio/registry/ccompat/rest/v7/impl/AbstractResource.java:186-193 | Every state the filter keeps is active, and DEPRECATED is active but filtered out. |
| `Lifecycle.AreAllSchemasDisabled` | app/src/main/java/io/apicurio/registry/ccompat/rest/v7/impl/AbstractResource.java:195-200 | An empty list is false. The result is true exactly when the scan stops at a DISABLED id. It is an error exactly when the scan stops at an unknown id, and the error is the storage's own not-found error for that first unknown id. |
| `Lifecycle.AreAllSchemasDisabledIsAny` | app/src/main/java/io/apicurio/registry/ccompat/rest/v7/impl/AbstractResource.java:195-200 | With every id known, the answer is whether ANY id is DISABLED. |
| `Lifecycle.DoesArtifactExist` | app/src/main/java/io/apicurio/registry/ccompat/rest/v7/impl/AbstractResource.java:202-209 | The answer is whether the (group, artifact) key is stored. The not-found error becomes false. |
| `Lifecycle.DoesArtifactRuleExist` | app/src/main/java/io/apicurio/registry/ccompat/rest/v7/impl/AbstractResource.java:211-218 | The answer is whether the artifact exists and has the rule. Both not-found errors become false. |
| `Lifecycle.DoesGlobalRuleExist` | app/src/main/java/io/apicurio/registry/ccompat/rest/v7/impl/AbstractResource.java:220-227 | The answer is whether the global rule is configured. |
| `Lifecycle.IsCcompatManagedType` | app/src/main/java/io/apicurio/registry/ccompat/rest/v7/impl/AbstractResource.java:242-244 | The answer is true exactly for AVRO, PROTOBUF and JSON, each one of the registry's artifact types. |
| `Lifecycle.ManagedTypes` | app/src/main/java/io/apicurio/registry/ccompat/rest/v7/impl/AbstractResource.java:242-244 | Of the registry's artifact types, exactly AVRO, PROTOBUF and JSON are managed. |
| `Properties.RegisterThenLatest` | app/src/main/java/io/apicurio/registry/ccompat/rest/v7/impl/AbstractResource.java:177-184 | After a successful registration, "latest", "-1" and the latest-version read all give the version just registered. |
| `Properties.RegisterThenExactLookup` | app/src/main/java/io/apicurio/registry/ccompat/rest/v7/impl/AbstractResource.java:138-140 | After a successful registration, an exact lookup of the same schema and references finds a version of that subject. |
| `Properties.RegisterThenCanonicalLookup` | app/src/main/java/io/apicurio/registry/ccompat/rest/v7/impl/AbstractResource.java:115-117 | After a successful registration, a normalised lookup finds a version of that subject for any schema whose canonical form equals the registered one's. The schema must be registered and looked up under the artifact's own type: a new subject takes the registration's type, and an existing one must already have it. |
| `Properties.RegisterPreservesOtherArtifacts` | app/src/main/java/io/apicurio/registry/ccompat/rest/v7/impl/AbstractResource.java:90-96 | A registration leaves every other subject's versions, record and metadata as they were. |
| `Properties.RegisterPreservesValid` | app/src/main/java/io/apicurio/registry/ccompat/rest/v7/impl/AbstractResource.java:90-96 | A registration keeps the storage valid: every row has an artifact, global ids increase and stay below the next one, and each artifact's versions are labelled "1", "2", … |
| `Properties.LabelReadsItsVersion` | app/src/main/java/io/apicurio/registry/ccompat/rest/v7/impl/AbstractResource.java:123-124 | In a valid storage, reading a listed label gives back exactly the version that label was listed for. |
| `Properties.GlobalIdReadsItsVersion` | app/src/main/java/io/apicurio/registry/ccompat/rest/v7/impl/AbstractResource.java:197 | In a valid storage, reading a stored global id gives back the metadata of its own version. |
| `Properties.LatestExample` | app/src/main/java/io/apicurio/registry/ccompat/rest/v7/impl/AbstractResource.java:258-266 | With versions "1", "2" and "3", both "latest" and "-1" give "3". |
| `Properties.NumericExamples` | app/src/main/java/io/apicurio/registry/ccompat/rest/v7/impl/AbstractResource.java:261-272 | "2" passes through, "abc" is version-not-found and "-5" is artifact-not-found. |
| `Properties.SignedExamples` | app/src/main/java/io/apicurio/registry/ccompat/rest/v7/impl/AbstractResource.java:262-264 | "+7" and "-0" parse as non-negative integers and pass through verbatim, sign included. |
| `RetryProxy.AllowedStep` | integration-tests/src/test/java/io/apicurio/tests/utils/RetryLimitingProxy.java:40-46 | A positive counter refuses the request and counts down by exactly one, never below zero. Zero or below allows it and leaves the counter alone. |
| `RetryProxy.RetryLimitingProxy.Allowed` | integration-tests/src/test/java/io/apicurio/tests/utils/RetryLimitingProxy.java:39-46 | The call allows the request exactly when the counter was at or below zero; the counter then moves as one `AllowedStep`. |
| `RetryProxy.RunRefusesFirstN` | integration-tests/src/test/java/io/apicurio/tests/utils/RetryLimitingProxy.java:23-46 | Request `i` (from 0) goes through if and only if `i >= n`. So exactly the first `n` are refused, and with `n ≤ 0` every request goes through. |
| `RetryProxy.CounterAfterValue` | integration-tests/src/test/java/io/apicurio/tests/utils/RetryLimitingProxy.java:41-45 | The counter counts down to zero and stops there. A counter starting at or below zero never moves. |
| `RetryProxy.CounterStaysInRange` | integration-tests/src/test/java/io/apicurio/tests/utils/RetryLimitingProxy.java:32-46 | The counter never increases. It never goes below zero from a non-negative start, so it never leaves the `int` range. |
| `RetryProxy.Serve` | integration-tests/src/test/java/io/apicurio/tests/utils/RetryLimitingProxy.java:34-46 | A freshly constructed proxy refuses exactly its first `failures` requests and allows the rest. |

## Left out

- Storage engine internals. The storage is an in-memory value whose choices belong to the model:
  - a new version is labelled one past the artifact's version count;
  - the default metadata read takes the last version;
  - `SKIP_DISABLED_LATEST` takes the last version that is not DISABLED;
  - reference resolution follows one level and skips missing targets;
  - a content or global-id miss is `ArtifactNotFound`;
  - a submission the canonicalizer rejects is an Avro parse exception for an Avro artifact. For any other type it is that type's own parse failure (`ContentInvalid`), which the resource layer does not catch.
- Nested references (references of referenced content) are not resolved. Reference resolution is one level deep.
- `findAny` in the Avro fallback is modelled as the first match in version order. The Java stream may return any match; every one satisfies the same digest equality.
- SHA-256, the canonicalizer, the dereferencer and the rules service are uninterpreted functions. The order in which the rules service applies configured rules is therefore not modelled. `RulesService.java` is an interface only.
- `AvroTypeException` and `SchemaParseException` are one parse-failure outcome of the canonicalizer and dereferencer.
- The type provider lookup (`factory.getArtifactTypeProvider`) for an unknown type is not modelled. The type is passed through as a string.
- Storage exceptions other than the not-found ones (`RegistryStorageException` and the like) are not modelled. The "any other error propagates" branches of the existence probes are therefore unreachable.
- `JavaText.ParseInt`: only ASCII digits are accepted. `Integer.parseInt` also accepts other Unicode decimal digits, which are not modelled.
- Null strings (subject, schema, version string, artifact type) are not modelled. Only the group id, the schema type, the reference list and a reference's version are nullable.
- Configuration wiring, port forwarding, the import test and the proxy's networking are not modelled; the proxy keeps only its destination host and port.
- Logging, dependency injection, and the `canonicalHashModeEnabled` supplier, which is a plain boolean here.

=== FILE: java_text.dfy ===
/** Java's decimal text of an `int` (`String.valueOf`) and `Integer.parseInt`,
    which the version-string logic relies on. */
module JavaText {
  import opened Types


  predicate IsDigit(c: char) {
    '0' <= c <= '9'
  }

  predicate AllDigits(s: string) {
    forall i :: 0 <= i < |s| ==> IsDigit(s[i])
  }

  function DigitValue(c: char): (d: nat)
    requires IsDigit(c)
    ensures d < 10
  {
    c as int - '0' as int
  }

  function DigitChar(d: nat): (c: char)
    requires d < 10
    ensures IsDigit(c) && DigitValue(c) == d
  {
    ('0' as int + d) as char
  }

  /** The value of a run of decimal digits, most significant first. */
  function DigitsValue(s: string): nat
    requires AllDigits(s)
  {
    if |s| == 0 then 0 else DigitsValue(s[..|s| - 1]) * 10 + DigitValue(s[|s| - 1])
  }

  /** Shortest decimal text of a natural number. */
  function NatToString(n: nat): (s: string)
    ensures |s| > 0 && AllDigits(s)
    ensures |s| > 1 ==> s[0] != '0'
    ensures n > 0 ==> s[0] != '0'
  {
    if n < 10 then [DigitChar(n)] else NatToString(n / 10) + [DigitChar(n % 10)]
  }

  /** `String.valueOf(int)`: a minus sign for negative values, then the digits. */
  function IntToString(n: int): (s: string)
    ensures |s| > 0
    ensures n >= 0 <==> IsDigit(s[0])
    ensures n < 0 <==> s[0] == '-'
    // No leading zeros, and no "-0": the shortest text, as Java writes it.
    ensures n >= 0 ==> AllDigits(s) && (|s| > 1 ==> s[0] != '0')
    ensures n < 0 ==> |s| > 1 && s[1] != '0' && AllDigits(s[1..])
  {
    if n < 0 then "-" + NatToString(-n) else NatToString(n)
  }

  /** `Integer.parseInt`: an optional `-` or `+`, at least one decimal digit and
      nothing else, with a value inside the 32-bit range; anything else is a
      NumberFormatException, here `None`. */
  function ParseInt(s: string): (r: Option<int>)
    ensures r.Some? ==> INT_MIN <= r.value <= INT_MAX
    ensures |s| == 0 ==> r.None?
    ensures r.Some? ==> (r.value < 0 ==> s[0] == '-')
    ensures r.Some? ==> forall i :: 1 <= i < |s| ==> IsDigit(s[i])
    ensures r.Some? ==> IsDigit(s[0]) || ((s[0] == '-' || s[0] == '+') && |s| > 1)
  {
    if |s| == 0 then None
    else
      var body := if s[0] == '-' || s[0] == '+' then s[1..] else s;
      if |body| == 0 || !AllDigits(body) then None
      else
        var magnitude: int := DigitsValue(body);
        var v := if s[0] == '-' then -magnitude else magnitude;
        if INT_MIN <= v <= INT_MAX then Some(v) else None
  }

  lemma {:induction false} DigitsValueOfNatToString(n: nat)
    ensures DigitsValue(NatToString(n)) == n
  {
    var s := NatToString(n);
    if n < 10 {
      assert s[..|s| - 1] == [];
    } else {
      assert s[..|s| - 1] == NatToString(n / 10);
      DigitsValueOfNatToString(n / 10);
    }
  }

  /** The value `Integer.parseInt` gives a well-formed text: an optional sign
      followed by digits reads as the digits' decimal value, negated after a
      `-`, when that value fits in an `int`, and fails otherwise. */
  lemma ParseIntOfDigits(sign: string, digits: string)
    requires sign == "" || sign == "-" || sign == "+"
    requires |digits| > 0 && AllDigits(digits)
    ensures var magnitude: int := DigitsValue(digits);
      var v := if sign == "-" then -magnitude else magnitude;
      ParseInt(sign + digits) == if INT_MIN <= v <= INT_MAX then Some(v) else None
  {
    var s := sign + digits;
    if sign == "" {
      assert s == digits;
    } else {
      assert s[0] == sign[0];
      assert s[1..] == digits;
    }
  }

  /** A digit string with a non-zero leading digit has a positive value. */
  lemma {:induction false} DigitsValuePositive(d: string)
    requires |d| > 0 && AllDigits(d) && d[0] != '0'
    ensures DigitsValue(d) > 0
  {
    if |d| > 1 {
      var prefix := d[..|d| - 1];
      assert prefix[0] == d[0];
      DigitsValuePositive(prefix);
    }
  }

  /** The shortest text is the only one: a digit string without a leading
      zero is exactly the text `String.valueOf` writes for its value. */
  lemma {:induction false} NatToStringOfDigits(d: string)
    requires |d| > 0 && AllDigits(d) && (|d| > 1 ==> d[0] != '0')
    ensures NatToString(DigitsValue(d)) == d
  {
    var v := DigitsValue(d);
    var last := d[|d| - 1];
    if |d| == 1 {
      assert d == [last];
      assert DigitChar(DigitValue(last)) == last;
    } else {
      var prefix := d[..|d| - 1];
      assert prefix[0] == d[0];
      DigitsValuePositive(prefix);
      NatToStringOfDigits(prefix);
      assert v / 10 == DigitsValue(prefix) && v % 10 == DigitValue(last);
      assert DigitChar(DigitValue(last)) == last;
      assert d == prefix + [last];
    }
  }

  /** Any text `Integer.parseInt` accepts without a `+`, a leading zero or a
      "-0" is exactly what `String.valueOf` writes for its value. */
  lemma IntToStringCanonical(s: string)
    requires ParseInt(s).Some? && s[0] != '+'
    requires IsDigit(s[0]) ==> (|s| > 1 ==> s[0] != '0')
    requires s[0] == '-' ==> s[1] != '0'
    ensures IntToString(ParseInt(s).value) == s
  {
    if s[0] == '-' {
      var d := s[1..];
      assert AllDigits(d);
      DigitsValuePositive(d);
      NatToStringOfDigits(d);
      assert s == "-" + d;
    } else {
      NatToStringOfDigits(s);
    }
  }

  /** `Integer.parseInt` reads back every `int` that `String.valueOf` writes. */
  lemma ParseIntOfIntToString(n: int)
    requires INT_MIN <= n <= INT_MAX
    ensures ParseInt(IntToString(n)) == Some(n)
  {
    var s := IntToString(n);
    if n < 0 {
      assert s[1..] == NatToString(-n);
      DigitsValueOfNatToString(-n);
    } else {
      DigitsValueOfNatToString(n);
    }
  }

  /** Distinct naturals have distinct decimal texts. */
  lemma NatToStringInjective(m: nat, n: nat)
    requires NatToString(m) == NatToString(n)
    ensures m == n
  {
    DigitsValueOfNatToString(m);
    DigitsValueOfNatToString(n);
  }

  /** Distinct `int`s have distinct texts. */
  lemma IntToStringInjective(m: int, n: int)
    requires INT_MIN <= m <= INT_MAX && INT_MIN <= n <= INT_MAX
    requires IntToString(m) == IntToString(n)
    ensures m == n
  {
    ParseIntOfIntToString(m);
    ParseIntOfIntToString(n);
  }
}

=== FILE: lifecycle.dfy ===
/** Artifact state predicates, existence probes and the managed-type check. */
module Lifecycle {
  import opened Types
  import opened RegistryStorage

  /** A state in which an artifact is usable. */
  predicate IsActiveState(state: ArtifactState) {
    state == ENABLED || state == DEPRECATED
  }

  /** The version that stands for the artifact under the given behaviour. */
  function StandInOf(st: Storage, key: ArtifactKey, behavior: RetrievalBehavior): Option<VersionRow> {
    StandIn(Versions(st, key), behavior)
  }

  /** isArtifactActive: the artifact's metadata is read first, so a missing
      artifact (or one with no version to stand for it) is an
      artifact-not-found error rather than `false`; otherwise the artifact is
      active exactly when its state is ENABLED or DEPRECATED. */
  function IsArtifactActive(st: Storage, subject: string, groupId: GroupId, behavior: RetrievalBehavior)
    : (r: Result<bool>)
    ensures r.Err? <==>
      ArtifactKey(groupId, subject) !in st.artifacts || StandInOf(st, ArtifactKey(groupId, subject), behavior).None?
    ensures r.Err? ==> r.error == ArtifactNotFound(groupId, subject)
    ensures r.Ok? ==>
      (r.value <==> IsActiveState(StandInOf(st, ArtifactKey(groupId, subject), behavior).value.state))
  {
    match GetArtifactMetaData(st, groupId, subject, behavior)
    case Err(e) => Err(e)
    case Ok(meta) =>
      Ok(IsArtifactExists(st, groupId, subject) && (meta.state == ENABLED || meta.state == DEPRECATED))
  }

  /** The existence test after the metadata read never changes the answer. */
  lemma IsArtifactActiveTrueIffActiveState(st: Storage, subject: string, groupId: GroupId, behavior: RetrievalBehavior)
    ensures IsArtifactActive(st, subject, groupId, behavior) == Ok(true) <==>
      ArtifactKey(groupId, subject) in st.artifacts
      && StandInOf(st, ArtifactKey(groupId, subject), behavior).Some?
      && IsActiveState(StandInOf(st, ArtifactKey(groupId, subject), behavior).value.state)
  {
  }

  /** shouldFilterState: with `deleted` every state is kept; otherwise only ENABLED. */
  function ShouldFilterState(deleted: bool, state: ArtifactState): (r: bool)
    ensures deleted ==> r
    ensures !deleted ==> (r <==> state == ENABLED)
  {
    if deleted then true else state == ENABLED
  }

  /** Without `deleted`, the filter is strictly narrower than activity:
      a DEPRECATED artifact is active but filtered out. */
  lemma ShouldFilterStateNarrowerThanActive(state: ArtifactState)
    ensures ShouldFilterState(false, state) ==> IsActiveState(state)
    ensures IsActiveState(DEPRECATED) && !ShouldFilterState(false, DEPRECATED)
  {
  }

  /** Whether the global id names a stored version. */
  predicate Known(st: Storage, globalId: int) {
    GetMetaDataByGlobalId(st, globalId).Ok?
  }

  predicate IsDisabledId(st: Storage, globalId: int) {
    Known(st, globalId) && GetMetaDataByGlobalId(st, globalId).value.state == DISABLED
  }

  /** Index of the first id that is unknown or disabled, or the list length. */
  function FirstStop(st: Storage, globalIds: seq<int>): (k: nat)
    ensures k <= |globalIds|
    ensures forall j :: 0 <= j < k ==> Known(st, globalIds[j]) && !IsDisabledId(st, globalIds[j])
    ensures k < |globalIds| ==> !Known(st, globalIds[k]) || IsDisabledId(st, globalIds[k])
  {
    if |globalIds| == 0 then 0
    else if !Known(st, globalIds[0]) || IsDisabledId(st, globalIds[0]) then 0
    else
      var k := FirstStop(st, globalIds[1..]);
      assert forall j :: 1 <= j < k + 1 ==> Known(st, globalIds[j]) && !IsDisabledId(st, globalIds[j]) by {
        forall j | 1 <= j < k + 1 ensures Known(st, globalIds[j]) && !IsDisabledId(st, globalIds[j]) {
          assert globalIds[j] == globalIds[1..][j - 1];
        }
      }
      k + 1
  }

  /** areAllSchemasDisabled: despite its name, true when ANY id is DISABLED.
      The ids are read in order and the scan stops at the first DISABLED one,
      so an unknown id fails the call only when it comes before that. */
  function AreAllSchemasDisabled(st: Storage, globalIds: seq<int>): (r: Result<bool>)
    ensures |globalIds| == 0 ==> r == Ok(false)
    ensures r == Ok(true) <==>
      FirstStop(st, globalIds) < |globalIds| && IsDisabledId(st, globalIds[FirstStop(st, globalIds)])
    ensures r.Err? <==>
      FirstStop(st, globalIds) < |globalIds| && !Known(st, globalIds[FirstStop(st, globalIds)])
    ensures r.Err? ==> r.error.ArtifactNotFound?
    // The error is the storage's own, for the first unknown id.
    ensures r.Err? ==> r.error == GetMetaDataByGlobalId(st, globalIds[FirstStop(st, globalIds)]).error
  {
    if |globalIds| == 0 then Ok(false)
    else
      match GetMetaDataByGlobalId(st, globalIds[0])
      case Err(e) => Err(e)
      case Ok(meta) =>
        if meta.state == DISABLED then Ok(true)
        else
          var tail := globalIds[1..];
          assert FirstStop(st, globalIds) == FirstStop(st, tail) + 1;
          assert FirstStop(st, tail) < |tail| ==> globalIds[FirstStop(st, globalIds)] == tail[FirstStop(st, tail)];
          AreAllSchemasDisabled(st, tail)
  }

  /** With every id known, the answer is whether any of them is DISABLED. */
  lemma AreAllSchemasDisabledIsAny(st: Storage, globalIds: seq<int>)
    requires forall i :: 0 <= i < |globalIds| ==> Known(st, globalIds[i])
    ensures AreAllSchemasDisabled(st, globalIds) == Ok(exists i :: 0 <= i < |globalIds| && IsDisabledId(st, globalIds[i]))
  {
    var k := FirstStop(st, globalIds);
    if k < |globalIds| {
      assert IsDisabledId(st, globalIds[k]);
    }
  }

  /** doesArtifactExist: an artifact-not-found error becomes `false`; any other
      error would propagate. */
  function DoesArtifactExist(st: Storage, artifactId: string, groupId: GroupId): (r: Result<bool>)
    ensures r == Ok(ArtifactKey(groupId, artifactId) in st.artifacts)
  {
    match GetArtifact(st, groupId, artifactId)
    case Ok(_) => Ok(true)
    case Err(ArtifactNotFound(_, _)) => Ok(false)
    case Err(e) => Err(e)
  }

  /** doesArtifactRuleExist: a missing rule and a missing artifact both become
      `false`; any other error would propagate. */
  function DoesArtifactRuleExist(st: Storage, artifactId: string, ruleType: RuleType, groupId: GroupId)
    : (r: Result<bool>)
    ensures r == Ok(ArtifactKey(groupId, artifactId) in st.artifacts
                    && ruleType in st.artifacts[ArtifactKey(groupId, artifactId)].rules)
  {
    match GetArtifactRule(st, groupId, artifactId, ruleType)
    case Ok(_) => Ok(true)
    case Err(RuleNotFound(_)) => Ok(false)
    case Err(ArtifactNotFound(_, _)) => Ok(false)
    case Err(e) => Err(e)
  }

  /** doesGlobalRuleExist: a missing rule becomes `false`; any other error
      would propagate. */
  function DoesGlobalRuleExist(st: Storage, ruleType: RuleType): (r: Result<bool>)
    ensures r == Ok(ruleType in st.globalRules)
  {
    match GetGlobalRule(st, ruleType)
    case Ok(_) => Ok(true)
    case Err(RuleNotFound(_)) => Ok(false)
    case Err(e) => Err(e)
  }

  /** isCcompatManagedType: the types the Confluent-compatible API serves. */
  function IsCcompatManagedType(artifactType: string): (r: bool)
    ensures r <==> artifactType in {AVRO, PROTOBUF, JSON}
    ensures r ==> artifactType in ArtifactTypes
  {
    artifactType == AVRO || artifactType == PROTOBUF || artifactType == JSON
  }

  /** Of the registry's artifact types, exactly Avro, Protobuf and JSON Schema
      are managed; the default lookup type is one of them. */
  lemma ManagedTypes()
    ensures (set t | t in ArtifactTypes && IsCcompatManagedType(t)) == {AVRO, PROTOBUF, JSON}
    ensures IsCcompatManagedType(AVRO)
  {
    var managed := set t | t in ArtifactTypes && IsCcompatManagedType(t);
    assert AVRO in managed && PROTOBUF in managed && JSON in managed;
  }
}

=== FILE: lookup.dfy ===
/** Looking a schema up by content under a subject: exact or canonical
    identity, with a dereference-based fallback scan for Avro. */
module Lookup {
  import opened Types
  import opened RegistryStorage
  import opened References

  /** What the scan makes of one stored version: dereferencing it fails, its
      dereferenced content has the SHA-256 of the raw submitted schema, or
      neither (including a label that names no version). */
  datatype ScanStep = Fails(message: string) | Matches | Passes

  /** The scan's verdict on the version with this label, dereferenced with
      its own resolved references. */
  function StepAt(st: Storage, env: Collaborators, groupId: GroupId, subject: string,
                  version: string, schema: string): ScanStep
  {
    match GetArtifactVersion(st, groupId, subject, version)
    case Err(_) => Passes
    case Ok(row) =>
      match env.dereference(row.content, RegistryStorage.ResolveReferences(st, row.references))
      case ParseFailure(message) => Fails(message)
      case Parsed(d) => if env.sha256(d) == env.sha256(schema) then Matches else Passes
  }

  /** Whether the stored version with this label, dereferenced with its own
      resolved references, has the SHA-256 of the raw submitted schema. */
  predicate DereferencedMatch(st: Storage, env: Collaborators, groupId: GroupId, subject: string,
                              version: string, schema: string)
  {
    StepAt(st, env, groupId, subject, version, schema) == Matches
  }

  /** Where the scan over `labels` stops: the first label whose version fails
      to dereference or matches, or `|labels|` when none does. */
  function ScanStop(st: Storage, env: Collaborators, groupId: GroupId, subject: string,
                    schema: string, labels: seq<string>): (k: nat)
    ensures k <= |labels|
    ensures forall i :: 0 <= i < k ==> StepAt(st, env, groupId, subject, labels[i], schema) == Passes
    ensures k < |labels| ==> StepAt(st, env, groupId, subject, labels[k], schema) != Passes
  {
    if |labels| == 0 then 0
    else if StepAt(st, env, groupId, subject, labels[0], schema) != Passes then 0
    else
      assert forall i :: 1 <= i < |labels| ==> labels[i] == labels[1..][i - 1];
      1 + ScanStop(st, env, groupId, subject, schema, labels[1..])
  }

  /** The filter-and-find over the subject's version labels: the first label
      whose dereferenced content matches; a dereferencing parse failure on the
      way aborts the scan. */
  function ScanVersions(st: Storage, env: Collaborators, groupId: GroupId, subject: string,
                        schema: string, labels: seq<string>): (r: Result<Option<string>>)
    requires forall i :: 0 <= i < |labels| ==> GetArtifactVersion(st, groupId, subject, labels[i]).Ok?
    ensures var k := ScanStop(st, env, groupId, subject, schema, labels);
      && (r.Err? <==> k < |labels| && StepAt(st, env, groupId, subject, labels[k], schema).Fails?)
      && (r.Err? ==> r.error == SchemaParse(StepAt(st, env, groupId, subject, labels[k], schema).message))
      && (r.Ok? && r.value.Some? <==> k < |labels| && DereferencedMatch(st, env, groupId, subject, labels[k], schema))
      && (r.Ok? && r.value.Some? ==> r.value.value == labels[k])
      && (r == Ok(None) <==> k == |labels|)
    ensures r.Ok? && r.value.Some? ==>
      r.value.value in labels && DereferencedMatch(st, env, groupId, subject, r.value.value, schema)
    ensures r.Ok? && r.value.None? ==>
      forall i :: 0 <= i < |labels| ==> !DereferencedMatch(st, env, groupId, subject, labels[i], schema)
  {
    if |labels| == 0 then Ok(None)
    else
      var row := GetArtifactVersion(st, groupId, subject, labels[0]).value;
      match env.dereference(row.content, RegistryStorage.ResolveReferences(st, row.references))
      case ParseFailure(message) => Err(SchemaParse(message))
      case Parsed(d) =>
        if env.sha256(d) == env.sha256(schema) then Ok(Some(labels[0]))
        else
          var rest := ScanVersions(st, env, groupId, subject, schema, labels[1..]);
          assert forall i :: 1 <= i < |labels| ==> labels[i] == labels[1..][i - 1];
          rest
  }

  /** Every label the storage lists for an artifact names one of its versions. */
  lemma ListedLabelsExist(st: Storage, groupId: GroupId, subject: string)
    requires ArtifactKey(groupId, subject) in st.artifacts
    ensures var labels := Labels(Versions(st, ArtifactKey(groupId, subject)));
      forall i :: 0 <= i < |labels| ==> GetArtifactVersion(st, groupId, subject, labels[i]).Ok?
  {
    var vs := Versions(st, ArtifactKey(groupId, subject));
    var labels := Labels(vs);
    forall i | 0 <= i < |labels|
      ensures GetArtifactVersion(st, groupId, subject, labels[i]).Ok?
    {
      var p := (row: VersionRow) => row.version == labels[i];
      assert p(vs[i]);
      assert FirstWhere(vs, p).Some?;
    }
  }

  /** The Avro fallback after a canonical miss: scan the subject's versions,
      return the first match's metadata, or re-raise the original miss. A
      version that fails to dereference before any match aborts the scan with
      its parse error. */
  function DereferenceFallback(st: Storage, env: Collaborators, groupId: GroupId, subject: string,
                               schema: string, miss: Error): (r: Result<MetaData>)
    ensures r.Err? ==> r.error == miss || r.error.SchemaParse? || r.error == ArtifactNotFound(groupId, subject)
    ensures r.Ok? ==>
      && DereferencedMatch(st, env, groupId, subject, r.value.version, schema)
      && r.value.groupId == groupId && r.value.artifactId == subject
    ensures ArtifactKey(groupId, subject) !in st.artifacts ==> r == Err(ArtifactNotFound(groupId, subject))
    ensures ArtifactKey(groupId, subject) in st.artifacts ==>
      var labels := Labels(Versions(st, ArtifactKey(groupId, subject)));
      var k := ScanStop(st, env, groupId, subject, schema, labels);
      && (k == |labels| ==> r == Err(miss))
      && (k < |labels| && StepAt(st, env, groupId, subject, labels[k], schema).Fails? ==>
            r == Err(SchemaParse(StepAt(st, env, groupId, subject, labels[k], schema).message)))
      && (k < |labels| && DereferencedMatch(st, env, groupId, subject, labels[k], schema) ==>
            r.Ok? && r == GetArtifactVersionMetaData(st, groupId, subject, labels[k]))
    ensures ArtifactKey(groupId, subject) in st.artifacts
      && (forall i :: 0 <= i < |Versions(st, ArtifactKey(groupId, subject))| ==>
            !DereferencedMatch(st, env, groupId, subject, Versions(st, ArtifactKey(groupId, subject))[i].version, schema))
      ==> r.Err?
  {
    match GetArtifactVersions(st, groupId, subject)
    case Err(e) => Err(e)
    case Ok(labels) =>
      ListedLabelsExist(st, groupId, subject);
      match ScanVersions(st, env, groupId, subject, schema, labels)
      case Err(e) => Err(e)
      case Ok(None) => Err(miss)
      case Ok(Some(version)) =>
        var row := GetArtifactVersion(st, groupId, subject, version).value;
        assert GetArtifactVersionMetaData(st, groupId, subject, version) == Ok(MetaOf(row));
        Ok(MetaOf(row))
  }

  /** The canonical path: canonical content lookup; on an artifact-not-found
      miss, the dereference fallback for Avro only, anything else re-raises. */
  function CanonicalLookup(st: Storage, env: Collaborators, artifactType: string, groupId: GroupId,
                           subject: string, schema: string, refs: seq<ArtifactReferenceDto>): (r: Result<MetaData>)
    ensures var byContent := GetVersionMetaDataByContent(st, env, groupId, subject, true, schema, refs);
      && (byContent.Ok? ==> r == byContent)
      && (byContent.Err? && !byContent.error.ArtifactNotFound? ==> r == byContent)
      && (artifactType != AVRO ==> r == byContent)
      && (artifactType == AVRO && byContent.Err? && byContent.error.ArtifactNotFound? ==>
            r == DereferenceFallback(st, env, groupId, subject, schema, ArtifactNotFound(groupId, subject)))
    ensures r.Ok? && GetVersionMetaDataByContent(st, env, groupId, subject, true, schema, refs).Err? ==>
      artifactType == AVRO && DereferencedMatch(st, env, groupId, subject, r.value.version, schema)
    ensures r.Err? ==> r.error == ArtifactNotFound(groupId, subject) || r.error.SchemaParse? || r.error.ContentInvalid?
  {
    match GetVersionMetaDataByContent(st, env, groupId, subject, true, schema, refs)
    case Err(ArtifactNotFound(g, a)) =>
      if artifactType == AVRO then DereferenceFallback(st, env, groupId, subject, schema, ArtifactNotFound(g, a))
      else Err(ArtifactNotFound(g, a))
    case other => other
  }

  /** The type a lookup runs under: AVRO when none is given. */
  function EffectiveType(schemaType: Option<string>): (t: string)
    ensures schemaType.None? ==> t == AVRO
    ensures schemaType.Some? ==> t == schemaType.value
  {
    if schemaType.None? then AVRO else schemaType.value
  }

  /** lookupSchema. References are checked first. With `normalize` or the
      canonical hash mode on, the canonical path runs; otherwise only the exact
      content lookup. Schema parse errors become unprocessable entities. */
  function LookupSchema(st: Storage, env: Collaborators, groupId: GroupId, subject: string, schema: string,
                        schemaReferences: Option<seq<SchemaReference>>, schemaType: Option<string>,
                        normalize: bool): (r: Result<MetaData>)
    // Parse errors never escape unclassified.
    ensures r.Err? ==> !r.error.SchemaParse?
    // Reference errors come first.
    ensures ParseReferences(st, schemaReferences, groupId).Err? ==>
      r == Err(ParseReferences(st, schemaReferences, groupId).error)
    // Without normalisation only an exact match is returned.
    ensures r.Ok? && !(env.canonicalHashModeEnabled || normalize) ==>
      exists row :: row in Versions(st, ArtifactKey(groupId, subject))
        && ExactMatch(env, row, schema, ParseReferences(st, schemaReferences, groupId).value)
        && r.value == MetaOf(row)
    // Without normalisation the result is the exact content lookup's, a hit
    // exactly when some version matches byte for byte.
    ensures ParseReferences(st, schemaReferences, groupId).Ok? && !(env.canonicalHashModeEnabled || normalize) ==>
      r == GetVersionMetaDataByContent(st, env, groupId, subject, false, schema,
                                       ParseReferences(st, schemaReferences, groupId).value)
    ensures (&& ParseReferences(st, schemaReferences, groupId).Ok?
             && !(env.canonicalHashModeEnabled || normalize)
             && ArtifactKey(groupId, subject) in st.artifacts) ==>
      (r.Ok? <==> exists i :: 0 <= i < |Versions(st, ArtifactKey(groupId, subject))|
                    && ExactMatch(env, Versions(st, ArtifactKey(groupId, subject))[i], schema,
                                  ParseReferences(st, schemaReferences, groupId).value))
    // With normalisation a parse error of the canonical path becomes an
    // unprocessable entity carrying its message; anything else passes through.
    ensures ParseReferences(st, schemaReferences, groupId).Ok? && (env.canonicalHashModeEnabled || normalize) ==>
      var found := CanonicalLookup(st, env, EffectiveType(schemaType), groupId, subject, schema,
                                   ParseReferences(st, schemaReferences, groupId).value);
      && (found.Err? && found.error.SchemaParse? ==> r == Err(UnprocessableEntity(Message(found.error.message))))
      && (!(found.Err? && found.error.SchemaParse?) ==> r == found)
    // An Avro canonical miss whose scan reaches the end re-raises the miss.
    ensures ParseReferences(st, schemaReferences, groupId).Ok? && (env.canonicalHashModeEnabled || normalize)
      && EffectiveType(schemaType) == AVRO && ArtifactKey(groupId, subject) in st.artifacts
      && GetVersionMetaDataByContent(st, env, groupId, subject, true, schema,
                                     ParseReferences(st, schemaReferences, groupId).value)
         == Err(ArtifactNotFound(groupId, subject))
      && ScanStop(st, env, groupId, subject, schema, Labels(Versions(st, ArtifactKey(groupId, subject))))
         == |Versions(st, ArtifactKey(groupId, subject))|
      ==> r == Err(ArtifactNotFound(groupId, subject))
    // Normalised lookups of a type other than Avro never use the fallback.
    ensures ParseReferences(st, schemaReferences, groupId).Ok?
      && (env.canonicalHashModeEnabled || normalize) && EffectiveType(schemaType) != AVRO
      && GetVersionMetaDataByContent(st, env, groupId, subject, true, schema,
                                     ParseReferences(st, schemaReferences, groupId).value)
         == Err(ArtifactNotFound(groupId, subject))
      ==> r == Err(ArtifactNotFound(groupId, subject))
    // A normalised hit is a canonical match or, for Avro, a dereferenced match.
    ensures r.Ok? && (env.canonicalHashModeEnabled || normalize) ==>
      GetVersionMetaDataByContent(st, env, groupId, subject, true, schema,
                                  ParseReferences(st, schemaReferences, groupId).value) == r
      || (EffectiveType(schemaType) == AVRO && DereferencedMatch(st, env, groupId, subject, r.value.version, schema))
  {
    var artifactType := EffectiveType(schemaType);
    match ParseReferences(st, schemaReferences, groupId)
    case Err(e) => Err(e)
    case Ok(refs) =>
      var found :=
        if env.canonicalHashModeEnabled || normalize then
          CanonicalLookup(st, env, artifactType, groupId, subject, schema, refs)
        else
          GetVersionMetaDataByContent(st, env, groupId, subject, false, schema, refs);
      match found
      case Err(SchemaParse(message)) => Err(UnprocessableEntity(Message(message)))
      case other => other
  }

  /** Omitting the type is the same as asking for Avro. */
  lemma LookupDefaultsToAvro(st: Storage, env: Collaborators, groupId: GroupId, subject: string, schema: string,
                             schemaReferences: Option<seq<SchemaReference>>, normalize: bool)
    ensures LookupSchema(st, env, groupId, subject, schema, schemaReferences, None, normalize)
         == LookupSchema(st, env, groupId, subject, schema, schemaReferences, Some(AVRO), normalize)
  {
  }

  /** Only an Avro parse exception is reclassified: when a normalised
      lookup's submission does not canonicalize under the stored artifact's
      type, an Avro artifact gives an unprocessable entity with the parse
      message, and any other type's failure propagates unchanged. */
  lemma CanonicalizeFailureClassified(st: Storage, env: Collaborators, groupId: GroupId, subject: string,
                                      schema: string, schemaReferences: Option<seq<SchemaReference>>,
                                      schemaType: Option<string>, normalize: bool)
    requires ParseReferences(st, schemaReferences, groupId).Ok?
    requires env.canonicalHashModeEnabled || normalize
    requires ArtifactKey(groupId, subject) in st.artifacts
    requires env.canonicalize(st.artifacts[ArtifactKey(groupId, subject)].artifactType, schema,
                              RegistryStorage.ResolveReferences(st, ParseReferences(st, schemaReferences, groupId).value)).ParseFailure?
    ensures var storedType := st.artifacts[ArtifactKey(groupId, subject)].artifactType;
      var message := env.canonicalize(storedType, schema,
                       RegistryStorage.ResolveReferences(st, ParseReferences(st, schemaReferences, groupId).value)).message;
      var r := LookupSchema(st, env, groupId, subject, schema, schemaReferences, schemaType, normalize);
      && (storedType == AVRO ==> r == Err(UnprocessableEntity(Message(message))))
      && (storedType != AVRO ==> r == Err(ContentInvalid(storedType, message)))
  {
    var refs := ParseReferences(st, schemaReferences, groupId).value;
    var storedType := st.artifacts[ArtifactKey(groupId, subject)].artifactType;
    var message := env.canonicalize(storedType, schema, RegistryStorage.ResolveReferences(st, refs)).message;
    var byContent := GetVersionMetaDataByContent(st, env, groupId, subject, true, schema, refs);
    assert byContent == Err(if storedType == AVRO then SchemaParse(message) else ContentInvalid(storedType, message));
    assert CanonicalLookup(st, env, EffectiveType(schemaType), groupId, subject, schema, refs) == byContent;
  }

  /** A scan passing only clean versions before a match stops on a match. */
  lemma ScanStopsOnMatch(st: Storage, env: Collaborators, groupId: GroupId, subject: string, schema: string,
                         labels: seq<string>, j: nat)
    requires j < |labels|
    requires StepAt(st, env, groupId, subject, labels[j], schema) == Matches
    requires forall i :: 0 <= i < j ==> !StepAt(st, env, groupId, subject, labels[i], schema).Fails?
    ensures ScanStop(st, env, groupId, subject, schema, labels) <= j
    ensures StepAt(st, env, groupId, subject, labels[ScanStop(st, env, groupId, subject, schema, labels)], schema) == Matches
  {
    var k := ScanStop(st, env, groupId, subject, schema, labels);
    assert k <= j;
    if k < j {
      assert !StepAt(st, env, groupId, subject, labels[k], schema).Fails?;
    }
  }

  /** The fallback scan succeeds when some version dereferences to the raw
      schema's digest and every version before it dereferences cleanly. */
  lemma FallbackFinds(st: Storage, env: Collaborators, groupId: GroupId, subject: string, schema: string,
                      miss: Error, j: nat)
    requires ArtifactKey(groupId, subject) in st.artifacts
    requires j < |Versions(st, ArtifactKey(groupId, subject))|
    requires DereferencedMatch(st, env, groupId, subject, Versions(st, ArtifactKey(groupId, subject))[j].version, schema)
    requires forall i :: 0 <= i < j ==>
      !StepAt(st, env, groupId, subject, Versions(st, ArtifactKey(groupId, subject))[i].version, schema).Fails?
    ensures DereferenceFallback(st, env, groupId, subject, schema, miss).Ok?
  {
    var vs := Versions(st, ArtifactKey(groupId, subject));
    var labels := Labels(vs);
    ScanStopsOnMatch(st, env, groupId, subject, schema, labels, j);
  }

  /** The Avro fallback finds what the canonical path misses: when the
      submission canonicalizes, and some listed version dereferences to the raw
      schema's digest with every version before it dereferencing cleanly, a
      normalised Avro lookup succeeds, and a result not found by canonical
      identity is a dereferenced match. */
  lemma AvroFallbackFinds(st: Storage, env: Collaborators, groupId: GroupId, subject: string, schema: string,
                          schemaReferences: Option<seq<SchemaReference>>, schemaType: Option<string>,
                          normalize: bool, j: nat)
    requires ParseReferences(st, schemaReferences, groupId).Ok?
    requires env.canonicalHashModeEnabled || normalize
    requires EffectiveType(schemaType) == AVRO
    requires ArtifactKey(groupId, subject) in st.artifacts
    requires env.canonicalize(st.artifacts[ArtifactKey(groupId, subject)].artifactType, schema,
                              RegistryStorage.ResolveReferences(st, ParseReferences(st, schemaReferences, groupId).value)).Parsed?
    requires j < |Versions(st, ArtifactKey(groupId, subject))|
    requires DereferencedMatch(st, env, groupId, subject, Versions(st, ArtifactKey(groupId, subject))[j].version, schema)
    requires forall i :: 0 <= i < j ==>
      !StepAt(st, env, groupId, subject, Versions(st, ArtifactKey(groupId, subject))[i].version, schema).Fails?
    ensures LookupSchema(st, env, groupId, subject, schema, schemaReferences, schemaType, normalize).Ok?
    ensures GetVersionMetaDataByContent(st, env, groupId, subject, true, schema,
                                        ParseReferences(st, schemaReferences, groupId).value).Err? ==>
      DereferencedMatch(st, env, groupId, subject,
                        LookupSchema(st, env, groupId, subject, schema, schemaReferences, schemaType, normalize).value.version,
                        schema)
  {
    var refs := ParseReferences(st, schemaReferences, groupId).value;
    var byContent := GetVersionMetaDataByContent(st, env, groupId, subject, true, schema, refs);
    FallbackFinds(st, env, groupId, subject, schema, ArtifactNotFound(groupId, subject), j);
    var found := CanonicalLookup(st, env, AVRO, groupId, subject, schema, refs);
    if byContent.Err? {
      assert byContent.error.ArtifactNotFound?;
    }
    assert found.Ok?;
    assert LookupSchema(st, env, groupId, subject, schema, schemaReferences, schemaType, normalize) == found;
  }
}

=== FILE: properties.dfy ===
/** Properties that relate several operations: what a successful registration
    makes visible to the reads, what it leaves alone, and the storage
    invariant it keeps. */
module Properties {
  import opened Types
  import opened JavaText
  import opened RegistryStorage
  import opened References
  import opened VersionStrings
  import opened Lifecycle
  import opened Registration
  import opened Lookup

  // ---- storage growth ----

  /** `st2` is `st` with one more version row and possibly one more artifact. */
  predicate GrowsBy(st: Storage, st2: Storage, row: VersionRow) {
    && st2.versions == st.versions + [row]
    && st.artifacts.Keys <= st2.artifacts.Keys
  }

  /** Appending rows never changes which row is found first, once one is. */
  lemma {:induction false} FirstWhereAppend(xs: seq<VersionRow>, ys: seq<VersionRow>, p: VersionRow -> bool)
    requires FirstWhere(xs, p).Some?
    ensures FirstWhere(xs + ys, p) == FirstWhere(xs, p)
  {
    if !p(xs[0]) {
      assert (xs + ys)[1..] == xs[1..] + ys;
      FirstWhereAppend(xs[1..], ys, p);
    }
  }

  /** A version that could be read before the storage grew reads the same after. */
  lemma GetArtifactVersionStable(st: Storage, st2: Storage, row: VersionRow,
                                 groupId: GroupId, artifactId: string, version: string)
    requires GrowsBy(st, st2, row)
    requires GetArtifactVersion(st, groupId, artifactId, version).Ok?
    ensures GetArtifactVersion(st2, groupId, artifactId, version) == GetArtifactVersion(st, groupId, artifactId, version)
  {
    var key := ArtifactKey(groupId, artifactId);
    VersionsOfAppend(st.versions, row, key);
    var p := (r: VersionRow) => r.version == version;
    FirstWhereAppend(Versions(st, key), if row.key == key then [row] else [], p);
  }

  /** References that were accepted before the storage grew are accepted after,
      with the same storage form. */
  lemma ParseReferencesStable(st: Storage, st2: Storage, row: VersionRow,
                              references: Option<seq<SchemaReference>>, groupId: GroupId)
    requires GrowsBy(st, st2, row)
    requires ParseReferences(st, references, groupId).Ok?
    ensures ParseReferences(st2, references, groupId) == ParseReferences(st, references, groupId)
  {
    if references.Some? {
      var refs := references.value;
      forall i | 0 <= i < |refs| ensures Targets(st2, refs[i], groupId) {
        var dto := ToDto(refs[i], groupId);
        assert Targets(st, refs[i], groupId);
        GetArtifactVersionStable(st, st2, row, dto.groupId, dto.artifactId, dto.version);
      }
      var a := ParseReferences(st, references, groupId).value;
      var b := ParseReferences(st2, references, groupId).value;
      assert |a| == |b|;
      assert forall i :: 0 <= i < |a| ==> a[i] == b[i];
    }
  }

  // ---- registration, then the reads ----

  /** A successful registration grows the storage by the row it reports. */
  lemma RegisterGrows(st: Storage, env: Collaborators, subject: string, schema: string, artifactType: string,
                      references: Option<seq<SchemaReference>>, groupId: GroupId)
    requires CreateOrUpdateArtifact(st, env, subject, schema, artifactType, references, groupId).result.Ok?
    ensures var parsed := ParseReferences(st, references, groupId).value;
            var row := NewRow(st, subject, schema, artifactType, parsed, groupId);
            var st2 := CreateOrUpdateArtifact(st, env, subject, schema, artifactType, references, groupId).storage;
            && GrowsBy(st, st2, row)
            && ArtifactKey(groupId, subject) in st2.artifacts
            && Versions(st2, ArtifactKey(groupId, subject)) == Versions(st, ArtifactKey(groupId, subject)) + [row]
  {
    var parsed := ParseReferences(st, references, groupId).value;
    var row := NewRow(st, subject, schema, artifactType, parsed, groupId);
    VersionsOfAppend(st.versions, row, ArtifactKey(groupId, subject));
  }

  /** After a successful registration, the subject's latest version (by
      "latest" and by "-1") is the version just registered. */
  lemma RegisterThenLatest(st: Storage, env: Collaborators, subject: string, schema: string, artifactType: string,
                           references: Option<seq<SchemaReference>>, groupId: GroupId)
    requires CreateOrUpdateArtifact(st, env, subject, schema, artifactType, references, groupId).result.Ok?
    ensures var r := CreateOrUpdateArtifact(st, env, subject, schema, artifactType, references, groupId);
            && GetLatestArtifactVersionForSubject(r.storage, subject, groupId) == Ok(r.result.value.version)
            && ResolveVersionString(r.storage, subject, LATEST, groupId) == Ok(r.result.value.version)
            && ResolveVersionString(r.storage, subject, "-1", groupId) == Ok(r.result.value.version)
  {
    var r := CreateOrUpdateArtifact(st, env, subject, schema, artifactType, references, groupId);
    RegisterGrows(st, env, subject, schema, artifactType, references, groupId);
    MinusOneIsLatest(r.storage, subject, groupId);
  }

  /** After a successful registration, looking the same schema up (exact
      identity, canonical hash mode off) finds a version of that subject. */
  lemma RegisterThenExactLookup(st: Storage, env: Collaborators, subject: string, schema: string, artifactType: string,
                                references: Option<seq<SchemaReference>>, groupId: GroupId)
    requires !env.canonicalHashModeEnabled
    requires CreateOrUpdateArtifact(st, env, subject, schema, artifactType, references, groupId).result.Ok?
    ensures var st2 := CreateOrUpdateArtifact(st, env, subject, schema, artifactType, references, groupId).storage;
            var found := LookupSchema(st2, env, groupId, subject, schema, references, Some(artifactType), false);
            found.Ok? && found.value.groupId == groupId && found.value.artifactId == subject
  {
    var st2 := CreateOrUpdateArtifact(st, env, subject, schema, artifactType, references, groupId).storage;
    var parsed := ParseReferences(st, references, groupId).value;
    var row := NewRow(st, subject, schema, artifactType, parsed, groupId);
    var key := ArtifactKey(groupId, subject);
    RegisterGrows(st, env, subject, schema, artifactType, references, groupId);
    ParseReferencesStable(st, st2, row, references, groupId);
    var vs := Versions(st2, key);
    assert vs[|vs| - 1] == row;
    assert ExactMatch(env, row, schema, parsed);
    assert GetVersionMetaDataByContent(st2, env, groupId, subject, false, schema, parsed).Ok?;
  }

  /** After a successful registration under the artifact's own type, a
      normalised lookup of any schema with the same canonical form finds a
      version of that subject. */
  lemma RegisterThenCanonicalLookup(st: Storage, env: Collaborators, subject: string, schema: string,
                                    artifactType: string, references: Option<seq<SchemaReference>>,
                                    groupId: GroupId, equivalent: string)
    requires CreateOrUpdateArtifact(st, env, subject, schema, artifactType, references, groupId).result.Ok?
    requires var st2 := CreateOrUpdateArtifact(st, env, subject, schema, artifactType, references, groupId).storage;
             var resolved := RegistryStorage.ResolveReferences(st2, ParseReferences(st, references, groupId).value);
             && (ArtifactKey(groupId, subject) in st.artifacts ==>
                   st.artifacts[ArtifactKey(groupId, subject)].artifactType == artifactType)
             && env.canonicalize(artifactType, schema, resolved).Parsed?
             && env.canonicalize(artifactType, equivalent, resolved) == env.canonicalize(artifactType, schema, resolved)
    ensures var st2 := CreateOrUpdateArtifact(st, env, subject, schema, artifactType, references, groupId).storage;
            var found := LookupSchema(st2, env, groupId, subject, equivalent, references, Some(artifactType), true);
            found.Ok? && found.value.groupId == groupId && found.value.artifactId == subject
  {
    var st2 := CreateOrUpdateArtifact(st, env, subject, schema, artifactType, references, groupId).storage;
    var parsed := ParseReferences(st, references, groupId).value;
    var row := NewRow(st, subject, schema, artifactType, parsed, groupId);
    var key := ArtifactKey(groupId, subject);
    RegisterGrows(st, env, subject, schema, artifactType, references, groupId);
    ParseReferencesStable(st, st2, row, references, groupId);
    var vs := Versions(st2, key);
    assert vs[|vs| - 1] == row;
    var c := env.canonicalize(artifactType, schema, RegistryStorage.ResolveReferences(st2, parsed)).content;
    assert CanonicalMatch(env, st2, row, c, parsed);
    var byContent := GetVersionMetaDataByContent(st2, env, groupId, subject, true, equivalent, parsed);
    assert byContent.Ok?;
    assert CanonicalLookup(st2, env, artifactType, groupId, subject, equivalent, parsed) == byContent;
  }

  /** Appending a row of one artifact leaves another artifact's reads alone. */
  lemma AppendLeavesOtherAlone(st: Storage, st2: Storage, row: VersionRow, other: ArtifactKey,
                               behavior: RetrievalBehavior)
    requires st2.versions == st.versions + [row] && row.key != other
    requires other in st2.artifacts <==> other in st.artifacts
    ensures Versions(st2, other) == Versions(st, other)
    ensures GetArtifactMetaData(st2, other.groupId, other.artifactId, behavior)
         == GetArtifactMetaData(st, other.groupId, other.artifactId, behavior)
  {
    VersionsOfAppend(st.versions, row, other);
  }

  /** A registration touches no other subject: its versions, its record and
      its metadata read the same afterwards. */
  lemma RegisterPreservesOtherArtifacts(st: Storage, env: Collaborators, subject: string, schema: string,
                                        artifactType: string, references: Option<seq<SchemaReference>>,
                                        groupId: GroupId, other: ArtifactKey, behavior: RetrievalBehavior)
    requires other != ArtifactKey(groupId, subject)
    ensures var st2 := CreateOrUpdateArtifact(st, env, subject, schema, artifactType, references, groupId).storage;
            && Versions(st2, other) == Versions(st, other)
            && (other in st2.artifacts <==> other in st.artifacts)
            && (other in st.artifacts ==> st2.artifacts[other] == st.artifacts[other])
            && GetArtifactMetaData(st2, other.groupId, other.artifactId, behavior)
               == GetArtifactMetaData(st, other.groupId, other.artifactId, behavior)
  {
    var r := CreateOrUpdateArtifact(st, env, subject, schema, artifactType, references, groupId);
    if r.result.Ok? {
      var parsed := ParseReferences(st, references, groupId).value;
      var row := NewRow(st, subject, schema, artifactType, parsed, groupId);
      AppendLeavesOtherAlone(st, r.storage, row, other, behavior);
    }
  }

  // ---- the storage invariant ----

  /** An artifact's versions are labelled "1", "2", ... in creation order. */
  predicate WellNumbered(rows: seq<VersionRow>) {
    forall i :: 0 <= i < |rows| ==> rows[i].version == IntToString(i + 1)
  }

  /** Every row belongs to a stored artifact, global ids increase strictly in
      creation order and stay below the next one to hand out, and every
      artifact's versions are well numbered. */
  predicate Valid(st: Storage) {
    && (forall i :: 0 <= i < |st.versions| ==> st.versions[i].key in st.artifacts)
    && (forall i :: 0 <= i < |st.versions| ==> st.versions[i].globalId < st.nextGlobalId)
    && (forall i, j :: 0 <= i < j < |st.versions| ==> st.versions[i].globalId < st.versions[j].globalId)
    && (forall key :: key in st.artifacts ==> WellNumbered(Versions(st, key)))
  }

  /** No row of the artifact, no versions. */
  lemma {:induction false} VersionsOfNone(rows: seq<VersionRow>, key: ArtifactKey)
    requires forall i :: 0 <= i < |rows| ==> rows[i].key != key
    ensures VersionsOf(rows, key) == []
  {
    if |rows| > 0 {
      VersionsOfNone(rows[..|rows| - 1], key);
    }
  }

  /** An artifact that is not stored has no rows in a valid storage. */
  lemma NoRecordNoVersions(st: Storage, key: ArtifactKey)
    requires Valid(st) && key !in st.artifacts
    ensures Versions(st, key) == []
  {
    VersionsOfNone(st.versions, key);
  }

  /** Appending a row with the next global id, for a stored artifact, keeps
      every row attached and the global ids increasing. */
  lemma AppendKeepsRowsOrdered(st: Storage, st2: Storage, row: VersionRow)
    requires Valid(st) && GrowsBy(st, st2, row) && row.key in st2.artifacts
    requires row.globalId == st.nextGlobalId && st2.nextGlobalId == st.nextGlobalId + 1
    ensures forall i :: 0 <= i < |st2.versions| ==>
      st2.versions[i].key in st2.artifacts && st2.versions[i].globalId < st2.nextGlobalId
    ensures forall i, j :: 0 <= i < j < |st2.versions| ==> st2.versions[i].globalId < st2.versions[j].globalId
  {
    var n := |st.versions|;
    assert st2.versions[n] == row;
    forall i | 0 <= i < |st2.versions|
      ensures st2.versions[i].key in st2.artifacts && st2.versions[i].globalId < st2.nextGlobalId
    {
      if i < n {
        assert st2.versions[i] == st.versions[i];
      }
    }
    forall i, j | 0 <= i < j < |st2.versions|
      ensures st2.versions[i].globalId < st2.versions[j].globalId
    {
      assert st2.versions[i] == st.versions[i];
      if j < n {
        assert st2.versions[j] == st.versions[j];
      }
    }
  }

  /** Appending a row leaves every other artifact well numbered. */
  lemma AppendKeepsOthersNumbered(st: Storage, st2: Storage, row: VersionRow)
    requires Valid(st) && GrowsBy(st, st2, row)
    requires st2.artifacts.Keys == st.artifacts.Keys + {row.key}
    requires WellNumbered(Versions(st2, row.key))
    ensures forall k :: k in st2.artifacts ==> WellNumbered(Versions(st2, k))
  {
    forall k | k in st2.artifacts ensures WellNumbered(Versions(st2, k)) {
      if k != row.key {
        assert k in st.artifacts;
        assert WellNumbered(Versions(st, k));
        VersionsOfAppend(st.versions, row, k);
      }
    }
  }

  /** The row a registration appends is numbered one past the artifact's
      versions. */
  lemma NewRowWellNumbered(st: Storage, subject: string, schema: string, artifactType: string,
                           parsed: seq<ArtifactReferenceDto>, groupId: GroupId)
    requires Valid(st)
    ensures var key := ArtifactKey(groupId, subject);
            WellNumbered(Versions(st, key) + [NewRow(st, subject, schema, artifactType, parsed, groupId)])
  {
    var key := ArtifactKey(groupId, subject);
    if key !in st.artifacts {
      NoRecordNoVersions(st, key);
      assert IntToString(1) == "1";
    }
  }

  /** Registration keeps the storage valid. */
  lemma RegisterPreservesValid(st: Storage, env: Collaborators, subject: string, schema: string,
                               artifactType: string, references: Option<seq<SchemaReference>>, groupId: GroupId)
    requires Valid(st)
    ensures Valid(CreateOrUpdateArtifact(st, env, subject, schema, artifactType, references, groupId).storage)
  {
    var r := CreateOrUpdateArtifact(st, env, subject, schema, artifactType, references, groupId);
    if r.result.Ok? {
      var parsed := ParseReferences(st, references, groupId).value;
      RegisterGrows(st, env, subject, schema, artifactType, references, groupId);
      NewRowWellNumbered(st, subject, schema, artifactType, parsed, groupId);
      var row := NewRow(st, subject, schema, artifactType, parsed, groupId);
      AppendKeepsRowsOrdered(st, r.storage, row);
      AppendKeepsOthersNumbered(st, r.storage, row);
    }
  }

  /** Well-numbered versions have pairwise distinct labels, so in a valid
      storage a version label names at most one version of an artifact. */
  lemma LabelsDistinct(rows: seq<VersionRow>, i: nat, j: nat)
    requires WellNumbered(rows) && i < j < |rows|
    ensures rows[i].version != rows[j].version
  {
    assert rows[i].version == NatToString(i + 1) && rows[j].version == NatToString(j + 1);
    if NatToString(i + 1) == NatToString(j + 1) {
      NatToStringInjective(i + 1, j + 1);
    }
  }

  /** In a valid storage each listed label reads back its own version, so the
      fallback scan's read of a label sees the version the label was listed
      for. */
  lemma LabelReadsItsVersion(st: Storage, groupId: GroupId, artifactId: string, i: nat)
    requires Valid(st) && ArtifactKey(groupId, artifactId) in st.artifacts
    requires i < |Versions(st, ArtifactKey(groupId, artifactId))|
    ensures GetArtifactVersion(st, groupId, artifactId, Versions(st, ArtifactKey(groupId, artifactId))[i].version)
         == Ok(Versions(st, ArtifactKey(groupId, artifactId))[i])
  {
    var vs := Versions(st, ArtifactKey(groupId, artifactId));
    var p := (row: VersionRow) => row.version == vs[i].version;
    assert p(vs[i]);
    var row := FirstWhere(vs, p).value;
    var j :| 0 <= j < |vs| && vs[j] == row;
    if j < i {
      LabelsDistinct(vs, j, i);
    } else if i < j {
      LabelsDistinct(vs, i, j);
    }
  }

  /** In a valid storage each stored global id reads back the metadata of its
      own version. */
  lemma GlobalIdReadsItsVersion(st: Storage, i: nat)
    requires Valid(st) && i < |st.versions|
    ensures GetMetaDataByGlobalId(st, st.versions[i].globalId) == Ok(MetaOf(st.versions[i]))
  {
    var p := (row: VersionRow) => row.globalId == st.versions[i].globalId;
    assert p(st.versions[i]);
    var row := FirstWhere(st.versions, p).value;
    var j :| 0 <= j < |st.versions| && st.versions[j] == row;
  }

  // ---- a worked example of version strings ----

  /** One Avro subject "s" with versions "1", "2" and "3". */
  function ThreeVersions(): Storage {
    var key := ArtifactKey(None, "s");
    Storage(
      map[key := ArtifactRecord(AVRO, {})],
      [VersionRow(key, "1", 1, AVRO, "a", [], ENABLED),
       VersionRow(key, "2", 2, AVRO, "b", [], ENABLED),
       VersionRow(key, "3", 3, AVRO, "c", [], DISABLED)],
      {}, 4)
  }

  /** The subject's versions are the whole table. */
  lemma ThreeVersionsListed()
    ensures Versions(ThreeVersions(), ArtifactKey(None, "s")) == ThreeVersions().versions
  {
    var rows := ThreeVersions().versions;
    var key := ArtifactKey(None, "s");
    assert VersionsOf(rows[..1], key) == rows[..1] by {
      assert rows[..1][..0] == [];
    }
    assert VersionsOf(rows[..2], key) == rows[..2] by {
      assert rows[..2][..1] == rows[..1];
    }
    assert rows[..|rows| - 1] == rows[..2];
  }

  /** "latest" and "-1" both select "3", even though version 3 is disabled. */
  lemma LatestExample()
    ensures ResolveVersionString(ThreeVersions(), "s", LATEST, None) == Ok("3")
    ensures ResolveVersionString(ThreeVersions(), "s", "-1", None) == Ok("3")
  {
    ThreeVersionsListed();
    MinusOneIsLatest(ThreeVersions(), "s", None);
  }

  /** "2" passes through; "abc" is a missing version; "-5" is an
      artifact-not-found error rather than a missing version. */
  lemma NumericExamples()
    ensures ResolveVersionString(ThreeVersions(), "s", "2", None) == Ok("2")
    ensures ResolveVersionString(ThreeVersions(), "s", "abc", None) == Err(VersionNotFound(None, "s", "abc"))
    ensures ResolveVersionString(ThreeVersions(), "s", "-5", None)
         == Err(ArtifactNotFound(None, "Illegal version format: -5"))
  {
    ResolveNumericVersion(ThreeVersions(), "s", 2, None);
    assert IntToString(2) == "2";
    ResolveNegativeVersion(ThreeVersions(), "s", -5, None);
    assert NatToString(5) == "5";
    assert IntToString(-5) == "-5";
    assert "Illegal version format: " + "-5" == "Illegal version format: -5";
    assert !IsDigit("abc"[0]);
  }

  /** A sign in front of a number is accepted: "+7" and "-0" name
      non-negative numbers and pass through verbatim. */
  lemma SignedExamples()
    ensures ResolveVersionString(ThreeVersions(), "s", "+7", None) == Ok("+7")
    ensures ResolveVersionString(ThreeVersions(), "s", "-0", None) == Ok("-0")
  {
    assert "+7"[1..] == "7" && "-0"[1..] == "0";
    assert "7"[..0] == [] && "0"[..0] == [];
    assert DigitsValue("7") == 7 && DigitsValue("0") == 0;
  }
}

=== FILE: references.dfy ===
/** Turning the references a Confluent client declares into storage references,
    and resolving them to content. Both are all-or-nothing. */
module References {
  import opened Types
  import opened JavaText
  import opened RegistryStorage

  /** `String.valueOf` of a nullable Integer. */
  function VersionText(version: Option<Int32>): (s: string)
    ensures version.None? ==> s == "null"
    ensures version.Some? ==> ParseInt(s) == Some(version.value as int)
    ensures version.Some? && version.value >= 0 ==> AllDigits(s) && (|s| > 1 ==> s[0] != '0')
    ensures version.Some? && version.value < 0 ==>
      |s| > 1 && s[0] == '-' && s[1] != '0' && AllDigits(s[1..])
  {
    match version
    case None => "null"
    case Some(n) =>
      ParseIntOfIntToString(n);
      IntToString(n)
  }

  /** The storage form of one declared reference, in the given group. */
  function ToDto(ref: SchemaReference, groupId: GroupId): ArtifactReferenceDto {
    ArtifactReferenceDto(groupId, ref.subject, VersionText(ref.version), ref.name)
  }

  function ToDtos(refs: seq<SchemaReference>, groupId: GroupId): (r: seq<ArtifactReferenceDto>)
    ensures |r| == |refs|
    ensures forall i :: 0 <= i < |refs| ==> r[i] == ToDto(refs[i], groupId)
  {
    if |refs| == 0 then []
    else
      var rest := ToDtos(refs[1..], groupId);
      assert forall i :: 1 <= i < |refs| ==> rest[i - 1] == ToDto(refs[i], groupId) by {
        forall i | 1 <= i < |refs| ensures rest[i - 1] == ToDto(refs[i], groupId) {
          assert refs[1..][i - 1] == refs[i];
        }
      }
      [ToDto(refs[0], groupId)] + rest
  }

  /** Whether the declared reference's target version exists in the group. */
  predicate Targets(st: Storage, ref: SchemaReference, groupId: GroupId) {
    Resolvable(st, ToDto(ref, groupId))
  }

  /** The content of the version a declared reference points at. */
  function ReferencedContent(st: Storage, ref: SchemaReference, groupId: GroupId): string
    requires Targets(st, ref, groupId)
  {
    TargetContent(st, ToDto(ref, groupId))
  }

  /** The error of looking up a declared reference's target. */
  function TargetError(st: Storage, ref: SchemaReference, groupId: GroupId): Error
    requires !Targets(st, ref, groupId)
  {
    GetArtifactVersion(st, groupId, ref.subject, VersionText(ref.version)).error
  }

  /** Index of the first declared reference whose target is missing, or the
      list length when every target exists. */
  function FirstMissing(st: Storage, refs: seq<SchemaReference>, groupId: GroupId): (k: nat)
    ensures k <= |refs|
    ensures forall j :: 0 <= j < k ==> Targets(st, refs[j], groupId)
    ensures k < |refs| ==> !Targets(st, refs[k], groupId)
  {
    if |refs| == 0 then 0
    else if !Targets(st, refs[0], groupId) then 0
    else
      var k := FirstMissing(st, refs[1..], groupId);
      TargetsPastHead(st, refs, groupId, k);
      k + 1
  }

  /** A run of found targets in the tail is the same run, one further on, in
      the whole list. */
  lemma TargetsPastHead(st: Storage, refs: seq<SchemaReference>, groupId: GroupId, k: nat)
    requires 0 < |refs| && k < |refs|
    requires forall j :: 0 <= j < k ==> Targets(st, refs[1..][j], groupId)
    ensures forall j :: 1 <= j < k + 1 ==> Targets(st, refs[j], groupId)
  {
    forall j | 1 <= j < k + 1 ensures Targets(st, refs[j], groupId) {
      assert refs[j] == refs[1..][j - 1];
    }
  }

  /** The check-and-convert loop over a non-null reference list: each target
      version is looked up in order and the first missing one aborts. */
  function ParseEach(st: Storage, refs: seq<SchemaReference>, groupId: GroupId)
    : (r: Result<seq<ArtifactReferenceDto>>)
    ensures r.Ok? <==> FirstMissing(st, refs, groupId) == |refs|
    ensures r.Ok? ==> r.value == ToDtos(refs, groupId)
  {
    if |refs| == 0 then Ok([])
    else
      var ref := refs[0];
      match GetArtifactVersionMetaData(st, groupId, ref.subject, VersionText(ref.version))
      case Err(e) => Err(e)
      case Ok(_) =>
        var tail := refs[1..];
        assert FirstMissing(st, refs, groupId) == FirstMissing(st, tail, groupId) + 1;
        match ParseEach(st, tail, groupId)
        case Err(e) => Err(e)
        case Ok(rest) => Ok([ToDto(ref, groupId)] + rest)
  }

  /** The conversion fails with the lookup error of the first missing target. */
  lemma {:induction false} ParseEachError(st: Storage, refs: seq<SchemaReference>, groupId: GroupId)
    requires ParseEach(st, refs, groupId).Err?
    ensures ParseEach(st, refs, groupId).error == TargetError(st, refs[FirstMissing(st, refs, groupId)], groupId)
  {
    var ref := refs[0];
    if GetArtifactVersionMetaData(st, groupId, ref.subject, VersionText(ref.version)).Ok? {
      var tail := refs[1..];
      ParseEachError(st, tail, groupId);
      assert FirstMissing(st, refs, groupId) == FirstMissing(st, tail, groupId) + 1;
      assert refs[FirstMissing(st, refs, groupId)] == tail[FirstMissing(st, tail, groupId)];
    }
  }

  /** parseReferences: null is the empty list; otherwise one storage reference
      per declared reference, in order, in the caller's group, failing with the
      lookup error of the first reference whose target version is missing. */
  function ParseReferences(st: Storage, references: Option<seq<SchemaReference>>, groupId: GroupId)
    : (r: Result<seq<ArtifactReferenceDto>>)
    ensures references.None? ==> r == Ok([])
    ensures references.Some? ==>
      (r.Ok? <==> forall i :: 0 <= i < |references.value| ==> Targets(st, references.value[i], groupId))
    ensures references.Some? && r.Ok? ==>
      |r.value| == |references.value|
      && forall i :: 0 <= i < |r.value| ==>
           r.value[i] == ArtifactReferenceDto(groupId, references.value[i].subject,
                                              VersionText(references.value[i].version),
                                              references.value[i].name)
    ensures references.Some? && r.Err? ==>
      var k := FirstMissing(st, references.value, groupId);
      k < |references.value| && r.error == TargetError(st, references.value[k], groupId)
    ensures r.Err? ==> r.error.ArtifactNotFound? || r.error.VersionNotFound?
  {
    match references
    case None => Ok([])
    case Some(refs) =>
      var r := ParseEach(st, refs, groupId);
      if r.Err? then ParseEachError(st, refs, groupId); r else r
  }

  /** resolveReferences: null or empty input resolves to nothing; otherwise the
      references are looked up in the null group and fewer resolved names than
      declared references is an "Unresolved reference" unprocessable entity. */
  function ResolveReferences(st: Storage, references: Option<seq<SchemaReference>>)
    : (r: Result<map<string, string>>)
    ensures references.None? || |references.value| == 0 ==> r == Ok(map[])
    ensures r.Err? ==> r.error == UnprocessableEntity(Message("Unresolved reference"))
    ensures r.Ok? ==> forall n :: n in r.value ==>
      exists i :: 0 <= i < |references.value| && references.value[i].name == n
  {
    if references.None? || |references.value| == 0 then Ok(map[])
    else
      var refs := references.value;
      var resolved := RegistryStorage.ResolveReferences(st, ToDtos(refs, None));
      ResolvedNamesDeclared(st, refs);
      if |refs| > |resolved| then Err(UnprocessableEntity(Message("Unresolved reference")))
      else Ok(resolved)
  }

  /** Every name the storage resolves is the name of a declared reference. */
  lemma ResolvedNamesDeclared(st: Storage, refs: seq<SchemaReference>)
    ensures forall n :: n in RegistryStorage.ResolveReferences(st, ToDtos(refs, None)) ==>
      exists i :: 0 <= i < |refs| && refs[i].name == n
  {
    var dtos := ToDtos(refs, None);
    forall n | n in RegistryStorage.ResolveReferences(st, dtos)
      ensures exists i :: 0 <= i < |refs| && refs[i].name == n
    {
      var i :| 0 <= i < |dtos| && dtos[i].name == n && Resolvable(st, dtos[i]);
      assert refs[i].name == n;
    }
  }

  /** One missing target rejects the whole list. */
  lemma ResolveReferencesAllOrNothing(st: Storage, refs: seq<SchemaReference>, k: nat)
    requires k < |refs| && !Targets(st, refs[k], None)
    ensures ResolveReferences(st, Some(refs)) == Err(UnprocessableEntity(Message("Unresolved reference")))
  {
    var dtos := ToDtos(refs, None);
    ResolveReferencesShortOnMissing(st, dtos, k);
  }

  /** Every target present and names distinct: one resolved entry per reference. */
  lemma ResolveReferencesSucceeds(st: Storage, refs: seq<SchemaReference>)
    requires forall i :: 0 <= i < |refs| ==> Targets(st, refs[i], None)
    requires forall i, j :: 0 <= i < j < |refs| ==> refs[i].name != refs[j].name
    ensures ResolveReferences(st, Some(refs)).Ok?
    ensures |ResolveReferences(st, Some(refs)).value| == |refs|
    ensures var resolved := ResolveReferences(st, Some(refs)).value;
      forall i :: 0 <= i < |refs| ==>
        refs[i].name in resolved && resolved[refs[i].name] == ReferencedContent(st, refs[i], None)
  {
    var dtos := ToDtos(refs, None);
    forall i | 0 <= i < |dtos| ensures Resolvable(st, dtos[i]) {
      assert Targets(st, refs[i], None);
    }
    forall i, j | 0 <= i < j < |dtos| ensures dtos[i].name != dtos[j].name {
      assert dtos[i].name == refs[i].name && dtos[j].name == refs[j].name;
    }
    ResolveReferencesComplete(st, dtos);
    var resolved := RegistryStorage.ResolveReferences(st, dtos);
    assert ResolveReferences(st, Some(refs)) == Ok(resolved);
    ResolveReferencesDistinctValues(st, dtos);
    forall i | 0 <= i < |refs|
      ensures refs[i].name in resolved
      ensures resolved[refs[i].name]
           == ReferencedContent(st, refs[i], None)
    {
      assert dtos[i] == ToDto(refs[i], None);
      assert Resolvable(st, dtos[i]);
    }
  }

  /** As written, two references sharing a logical name collapse into one map
      entry, so the list is reported unresolved even when every target exists. */
  lemma ResolveReferencesRejectsDuplicateNames(st: Storage, refs: seq<SchemaReference>, i: nat, j: nat)
    requires i < j < |refs| && refs[i].name == refs[j].name
    ensures ResolveReferences(st, Some(refs)) == Err(UnprocessableEntity(Message("Unresolved reference")))
  {
    var dtos := ToDtos(refs, None);
    ResolveReferencesShortOnDuplicate(st, dtos, i, j);
  }
}

=== FILE: registration.dfy ===
/** Registering a schema under a subject: create the artifact or add a
    version, after the configured rules accept the content. */
module Registration {
  import opened Types
  import opened JavaText
  import opened RegistryStorage
  import opened References
  import opened Lifecycle

  /** The storage after the call and the call's outcome. */
  datatype Effect<+T> = Effect(storage: Storage, result: Result<T>)

  /** How a rule violation is reported: a failed VALIDITY rule means the
      content is malformed, any other failed rule is a conflict. */
  function ClassifyViolation(ruleType: RuleType): (e: Error)
    ensures e.UnprocessableEntity? <==> ruleType == VALIDITY
    ensures e.Conflict? <==> ruleType != VALIDITY
    ensures e.UnprocessableEntity? ==> e.reason == ViolatedRule(ruleType)
    ensures e.Conflict? ==> e.ruleType == ruleType
  {
    if ruleType == VALIDITY then UnprocessableEntity(ViolatedRule(ruleType)) else Conflict(ruleType)
  }

  /** The REST bean form of the parsed references, field for field. */
  function ToArtifactReferences(dtos: seq<ArtifactReferenceDto>): (r: seq<ArtifactReference>)
    ensures |r| == |dtos|
    ensures forall i :: 0 <= i < |dtos| ==>
      r[i] == ArtifactReference(dtos[i].name, dtos[i].groupId, dtos[i].artifactId, dtos[i].version)
  {
    seq(|dtos|, i requires 0 <= i < |dtos| =>
      ArtifactReference(dtos[i].name, dtos[i].groupId, dtos[i].artifactId, dtos[i].version))
  }

  /** What the rules service is asked to check for a submission. */
  function RulesRequest(
    st: Storage, subject: string, schema: string, artifactType: string,
    parsed: seq<ArtifactReferenceDto>, groupId: GroupId, application: RuleApplicationType): RuleRequest
  {
    RuleRequest(groupId, subject, artifactType, schema, application,
                ToArtifactReferences(parsed), RegistryStorage.ResolveReferences(st, parsed))
  }

  /** CREATE for a subject that does not exist yet, UPDATE otherwise. */
  function ApplicationFor(st: Storage, subject: string, groupId: GroupId): RuleApplicationType {
    if ArtifactKey(groupId, subject) in st.artifacts then UPDATE else CREATE
  }

  /** The version row a successful registration appends. */
  function NewRow(st: Storage, subject: string, schema: string, artifactType: string,
                  parsed: seq<ArtifactReferenceDto>, groupId: GroupId): VersionRow
  {
    var key := ArtifactKey(groupId, subject);
    var version := if key in st.artifacts then IntToString(|Versions(st, key)| + 1) else "1";
    VersionRow(key, version, st.nextGlobalId, artifactType, schema, parsed, ENABLED)
  }

  /** createOrUpdateArtifact. References are checked first and their errors
      propagate unchanged; then the rules for CREATE (new subject) or UPDATE
      (existing subject) run, and only if they pass is anything written. */
  function CreateOrUpdateArtifact(
    st: Storage, env: Collaborators, subject: string, schema: string, artifactType: string,
    references: Option<seq<SchemaReference>>, groupId: GroupId): (r: Effect<MetaData>)
    // Nothing is written unless the whole registration succeeds.
    ensures r.result.Err? ==> r.storage == st
    // Reference errors come first and are not reclassified.
    ensures ParseReferences(st, references, groupId).Err? ==>
      r.result == Err(ParseReferences(st, references, groupId).error)
    // A violated rule of the mode the subject calls for is classified.
    ensures ParseReferences(st, references, groupId).Ok? ==>
      var request := RulesRequest(st, subject, schema, artifactType,
                                  ParseReferences(st, references, groupId).value, groupId,
                                  ApplicationFor(st, subject, groupId));
      (env.applyRules(request).Some? ==> r.result == Err(ClassifyViolation(env.applyRules(request).value)))
      && (env.applyRules(request).None? ==> r.result.Ok?)
    // Success appends exactly one version holding the submitted schema.
    ensures r.result.Ok? ==>
      var parsed := ParseReferences(st, references, groupId).value;
      var row := NewRow(st, subject, schema, artifactType, parsed, groupId);
      && ParseReferences(st, references, groupId).Ok?
      && r.storage.versions == st.versions + [row]
      && r.result.value == MetaOf(row)
      && r.storage.nextGlobalId == st.nextGlobalId + 1
      && r.storage.globalRules == st.globalRules
      && r.storage.artifacts.Keys == st.artifacts.Keys + {ArtifactKey(groupId, subject)}
      && (forall k :: k in st.artifacts ==> r.storage.artifacts[k] == st.artifacts[k])
    // A new subject is created with the submitted type and no rules of its own.
    ensures r.result.Ok? && ArtifactKey(groupId, subject) !in st.artifacts ==>
      r.storage.artifacts[ArtifactKey(groupId, subject)] == ArtifactRecord(artifactType, {})
  {
    match ParseReferences(st, references, groupId)
    case Err(e) => Effect(st, Err(e))
    case Ok(parsed) =>
      var beans := ToArtifactReferences(parsed);
      var resolved := RegistryStorage.ResolveReferences(st, parsed);
      match DoesArtifactExist(st, subject, groupId)
      case Err(e) => Effect(st, Err(e))
      case Ok(found) =>
        var application := if found then UPDATE else CREATE;
        match env.applyRules(RuleRequest(groupId, subject, artifactType, schema, application, beans, resolved))
        case Some(violated) => Effect(st, Err(ClassifyViolation(violated)))
        case None =>
          var w := if found then UpdateArtifact(st, groupId, subject, artifactType, schema, parsed)
                   else CreateArtifact(st, groupId, subject, artifactType, schema, parsed);
          Effect(w.storage, Ok(w.meta))
  }
}

=== FILE: retry_proxy.dfy ===
/** The test proxy that refuses the first `n` requests and lets the rest
    through: a counter that counts down to zero and stays there. */
module RetryProxy {
  import opened Types
  import opened JavaText

  /** The counter after one request and whether that request went through. */
  datatype Step = Step(failures: int, allowed: bool)

  /** One call of `allowed()`: a positive counter refuses the request and
      counts down; zero or below lets it through and stays put. */
  function AllowedStep(failures: int): (s: Step)
    ensures s.allowed <==> failures <= 0
    ensures s.allowed ==> s.failures == failures
    ensures !s.allowed ==> s.failures == failures - 1 && 0 <= s.failures
  {
    if failures > 0 then Step(failures - 1, false) else Step(failures, true)
  }

  /** The answers to `calls` consecutive requests, starting from `failures`. */
  function Run(failures: int, calls: nat): (r: seq<bool>)
    ensures |r| == calls
    ensures calls > 0 ==> r[0] == AllowedStep(failures).allowed
  {
    if calls == 0 then []
    else [AllowedStep(failures).allowed] + Run(AllowedStep(failures).failures, calls - 1)
  }

  /** The counter after `calls` consecutive requests. */
  function CounterAfter(failures: int, calls: nat): int {
    if calls == 0 then failures else CounterAfter(AllowedStep(failures).failures, calls - 1)
  }

  /** Exactly the first `n` requests are refused: request `i` (from 0) goes
      through if and only if `i >= n`. */
  lemma {:induction false} RunRefusesFirstN(n: int, calls: nat)
    ensures forall i :: 0 <= i < calls ==> (Run(n, calls)[i] <==> i >= n)
  {
    if calls > 0 {
      var next := AllowedStep(n).failures;
      RunRefusesFirstN(next, calls - 1);
      var r := Run(n, calls);
      forall i | 1 <= i < calls ensures r[i] <==> i >= n {
        assert r[i] == Run(next, calls - 1)[i - 1];
      }
    }
  }

  /** The counter counts down to zero and no further; a counter that starts
      at or below zero never moves. */
  lemma {:induction false} CounterAfterValue(n: int, calls: nat)
    ensures n <= 0 ==> CounterAfter(n, calls) == n
    ensures n > 0 ==> CounterAfter(n, calls) == if calls <= n then n - calls else 0
  {
    if calls > 0 {
      CounterAfterValue(AllowedStep(n).failures, calls - 1);
    }
  }

  /** The counter stays between its start and zero, so a Java `int` counter
      never wraps around. */
  lemma CounterStaysInRange(n: int, calls: nat)
    requires INT_MIN <= n <= INT_MAX
    ensures INT_MIN <= CounterAfter(n, calls) <= INT_MAX
    ensures CounterAfter(n, calls) <= n
    ensures n >= 0 ==> CounterAfter(n, calls) >= 0
  {
    CounterAfterValue(n, calls);
  }

  /** The proxy's counter state. */
  class RetryLimitingProxy {
    var failures: Int32
    const destinationHost: string
    const destinationPort: int

    constructor(failures: Int32, destinationHost: string, destinationPort: int)
      ensures this.failures == failures
      ensures this.destinationHost == destinationHost && this.destinationPort == destinationPort
    {
      this.failures := failures;
      this.destinationHost := destinationHost;
      this.destinationPort := destinationPort;
    }

    /** allowed(): one step of the counter. */
    method Allowed() returns (allowed: bool)
      modifies this
      ensures allowed <==> old(failures) <= 0
      ensures failures == AllowedStep(old(failures)).failures
    {
      if failures > 0 {
        failures := failures - 1;
        return false;
      }
      return true;
    }
  }

  /** A fresh proxy answering `calls` requests in a row: the first `failures`
      are refused and the rest go through. */
  method Serve(failures: Int32, destinationHost: string, destinationPort: int, calls: nat)
    returns (answers: seq<bool>)
    ensures |answers| == calls
    ensures forall i :: 0 <= i < calls ==> (answers[i] <==> i >= failures)
  {
    var proxy := new RetryLimitingProxy(failures, destinationHost, destinationPort);
    answers := [];
    while |answers| < calls
      invariant |answers| <= calls
      invariant forall i :: 0 <= i < |answers| ==> (answers[i] <==> i >= failures)
      invariant proxy.failures == (if failures <= 0 then failures else if |answers| <= failures then failures - |answers| else 0)
    {
      var allowed := proxy.Allowed();
      answers := answers + [allowed];
    }
  }
}

=== FILE: storage.dfy ===
/** An in-memory model of the registry storage contract the resource layer
    consumes. Artifacts live in a map keyed by (group, artifact id); every
    stored version is a row of one table kept in creation order, as in the
    relational storage. */
module RegistryStorage {
  import opened Types
  import opened JavaText

  datatype ArtifactKey = ArtifactKey(groupId: GroupId, artifactId: string)

  /** Artifact-level data: its type and the rules configured on it. */
  datatype ArtifactRecord = ArtifactRecord(artifactType: string, rules: set<RuleType>)

  /** One stored version with its content and the references it declared. */
  datatype VersionRow = VersionRow(
    key: ArtifactKey, version: string, globalId: int, artifactType: string,
    content: string, references: seq<ArtifactReferenceDto>, state: ArtifactState)

  datatype Storage = Storage(
    artifacts: map<ArtifactKey, ArtifactRecord>,
    versions: seq<VersionRow>,
    globalRules: set<RuleType>,
    nextGlobalId: int)

  /** The storage after a write, and the metadata the write returned. */
  datatype Write = Write(storage: Storage, meta: MetaData)

  function MetaOf(row: VersionRow): (m: MetaData)
    ensures m.groupId == row.key.groupId && m.artifactId == row.key.artifactId
    ensures m.version == row.version && m.globalId == row.globalId && m.state == row.state
  {
    MetaData(row.key.groupId, row.key.artifactId, row.version, row.globalId, row.artifactType, row.state)
  }

  /** The first row satisfying `p`. */
  function FirstWhere(rows: seq<VersionRow>, p: VersionRow -> bool): (r: Option<VersionRow>)
    ensures r.Some? ==> r.value in rows && p(r.value)
    ensures r.None? <==> forall i :: 0 <= i < |rows| ==> !p(rows[i])
  {
    if |rows| == 0 then None
    else if p(rows[0]) then Some(rows[0])
    else FirstWhere(rows[1..], p)
  }

  /** The last row satisfying `p`. */
  function LastWhere(rows: seq<VersionRow>, p: VersionRow -> bool): (r: Option<VersionRow>)
    ensures r.Some? ==> r.value in rows && p(r.value)
    ensures r.None? <==> forall i :: 0 <= i < |rows| ==> !p(rows[i])
  {
    if |rows| == 0 then None
    else if p(rows[|rows| - 1]) then Some(rows[|rows| - 1])
    else LastWhere(rows[..|rows| - 1], p)
  }

  /** The versions of one artifact, in creation order. */
  function VersionsOf(rows: seq<VersionRow>, key: ArtifactKey): (r: seq<VersionRow>)
    ensures |r| <= |rows|
    ensures forall i :: 0 <= i < |r| ==> r[i].key == key && r[i] in rows
    ensures forall i :: 0 <= i < |rows| && rows[i].key == key ==> rows[i] in r
  {
    if |rows| == 0 then []
    else
      var last := rows[|rows| - 1];
      VersionsOf(rows[..|rows| - 1], key) + (if last.key == key then [last] else [])
  }

  function Versions(st: Storage, key: ArtifactKey): seq<VersionRow> {
    VersionsOf(st.versions, key)
  }

  /** Appending a row extends exactly the versions of the row's own artifact. */
  lemma VersionsOfAppend(rows: seq<VersionRow>, row: VersionRow, key: ArtifactKey)
    ensures VersionsOf(rows + [row], key)
         == VersionsOf(rows, key) + (if row.key == key then [row] else [])
  {
    assert (rows + [row])[..|rows|] == rows;
  }

  // ---- reads ----

  function IsArtifactExists(st: Storage, groupId: GroupId, artifactId: string): bool {
    ArtifactKey(groupId, artifactId) in st.artifacts
  }

  function GetArtifact(st: Storage, groupId: GroupId, artifactId: string): (r: Result<ArtifactRecord>)
    ensures r.Ok? <==> ArtifactKey(groupId, artifactId) in st.artifacts
    ensures r.Err? ==> r.error == ArtifactNotFound(groupId, artifactId)
  {
    var key := ArtifactKey(groupId, artifactId);
    if key in st.artifacts then Ok(st.artifacts[key]) else Err(ArtifactNotFound(groupId, artifactId))
  }

  /** The version that stands for a whole artifact: its last version, or its
      last version that is not disabled. */
  function StandIn(rows: seq<VersionRow>, behavior: RetrievalBehavior): (r: Option<VersionRow>)
    ensures behavior == DEFAULT ==> (r.Some? <==> |rows| > 0)
    ensures behavior == DEFAULT && |rows| > 0 ==> r.value == rows[|rows| - 1]
    ensures behavior == SKIP_DISABLED_LATEST && r.Some? ==> r.value in rows && r.value.state != DISABLED
  {
    match behavior
    case DEFAULT => if |rows| == 0 then None else Some(rows[|rows| - 1])
    case SKIP_DISABLED_LATEST => LastWhere(rows, (row: VersionRow) => row.state != DISABLED)
  }

  function GetArtifactMetaData(st: Storage, groupId: GroupId, artifactId: string, behavior: RetrievalBehavior)
    : (r: Result<MetaData>)
    ensures r.Ok? ==> ArtifactKey(groupId, artifactId) in st.artifacts
    ensures r.Err? ==> r.error == ArtifactNotFound(groupId, artifactId)
  {
    var key := ArtifactKey(groupId, artifactId);
    if key !in st.artifacts then Err(ArtifactNotFound(groupId, artifactId))
    else match StandIn(Versions(st, key), behavior)
      case None => Err(ArtifactNotFound(groupId, artifactId))
      case Some(row) => Ok(MetaOf(row))
  }

  /** Metadata of the version with the given global id. */
  function GetMetaDataByGlobalId(st: Storage, globalId: int): (r: Result<MetaData>)
    ensures r.Ok? ==> r.value.globalId == globalId
    ensures r.Err? <==> forall i :: 0 <= i < |st.versions| ==> st.versions[i].globalId != globalId
  {
    match FirstWhere(st.versions, (row: VersionRow) => row.globalId == globalId)
    case None => Err(ArtifactNotFound(None, IntToString(globalId)))
    case Some(row) => Ok(MetaOf(row))
  }

  function GetArtifactVersion(st: Storage, groupId: GroupId, artifactId: string, version: string)
    : (r: Result<VersionRow>)
    ensures r.Ok? ==> r.value in Versions(st, ArtifactKey(groupId, artifactId)) && r.value.version == version
    ensures r.Err? && ArtifactKey(groupId, artifactId) !in st.artifacts ==> r.error == ArtifactNotFound(groupId, artifactId)
    ensures r.Err? && ArtifactKey(groupId, artifactId) in st.artifacts ==> r.error == VersionNotFound(groupId, artifactId, version)
  {
    var key := ArtifactKey(groupId, artifactId);
    if key !in st.artifacts then Err(ArtifactNotFound(groupId, artifactId))
    else match FirstWhere(Versions(st, key), (row: VersionRow) => row.version == version)
      case None => Err(VersionNotFound(groupId, artifactId, version))
      case Some(row) => Ok(row)
  }

  function GetArtifactVersionMetaData(st: Storage, groupId: GroupId, artifactId: string, version: string)
    : Result<MetaData>
  {
    match GetArtifactVersion(st, groupId, artifactId, version)
    case Ok(row) => Ok(MetaOf(row))
    case Err(e) => Err(e)
  }

  function Labels(rows: seq<VersionRow>): (r: seq<string>)
    ensures |r| == |rows|
    ensures forall i :: 0 <= i < |rows| ==> r[i] == rows[i].version
  {
    if |rows| == 0 then [] else Labels(rows[..|rows| - 1]) + [rows[|rows| - 1].version]
  }

  function GetArtifactVersions(st: Storage, groupId: GroupId, artifactId: string): (r: Result<seq<string>>)
    ensures r.Ok? <==> ArtifactKey(groupId, artifactId) in st.artifacts
    ensures r.Err? ==> r.error == ArtifactNotFound(groupId, artifactId)
  {
    var key := ArtifactKey(groupId, artifactId);
    if key !in st.artifacts then Err(ArtifactNotFound(groupId, artifactId))
    else Ok(Labels(Versions(st, key)))
  }

  function GetArtifactRule(st: Storage, groupId: GroupId, artifactId: string, ruleType: RuleType)
    : (r: Result<RuleType>)
    ensures r.Err? ==> r.error == ArtifactNotFound(groupId, artifactId) || r.error == RuleNotFound(ruleType)
  {
    var key := ArtifactKey(groupId, artifactId);
    if key !in st.artifacts then Err(ArtifactNotFound(groupId, artifactId))
    else if ruleType !in st.artifacts[key].rules then Err(RuleNotFound(ruleType))
    else Ok(ruleType)
  }

  function GetGlobalRule(st: Storage, ruleType: RuleType): (r: Result<RuleType>)
    ensures r.Err? ==> r.error == RuleNotFound(ruleType)
  {
    if ruleType in st.globalRules then Ok(ruleType) else Err(RuleNotFound(ruleType))
  }

  /** Whether a stored reference points at an existing version. */
  predicate Resolvable(st: Storage, ref: ArtifactReferenceDto) {
    GetArtifactVersion(st, ref.groupId, ref.artifactId, ref.version).Ok?
  }

  /** The content of the version a resolvable reference points at. */
  function TargetContent(st: Storage, ref: ArtifactReferenceDto): string
    requires Resolvable(st, ref)
  {
    GetArtifactVersion(st, ref.groupId, ref.artifactId, ref.version).value.content
  }

  /** The storage's reference resolution: logical name to referenced content,
      silently skipping references whose target does not exist; a later
      reference with an already used name replaces the earlier one. */
  function ResolveReferences(st: Storage, refs: seq<ArtifactReferenceDto>): (r: map<string, string>)
    ensures forall i :: 0 <= i < |refs| && Resolvable(st, refs[i]) ==> refs[i].name in r
    ensures forall n :: n in r ==> exists i :: 0 <= i < |refs| && refs[i].name == n && Resolvable(st, refs[i])
  {
    if |refs| == 0 then map[]
    else
      var m := ResolveReferences(st, refs[..|refs| - 1]);
      var ref := refs[|refs| - 1];
      match GetArtifactVersion(st, ref.groupId, ref.artifactId, ref.version)
      case Ok(row) => m[ref.name := row.content]
      case Err(_) => m
  }

  /** The storage's resolution of the references, one step at a time. */
  lemma ResolveReferencesStep(st: Storage, refs: seq<ArtifactReferenceDto>)
    requires |refs| > 0
    ensures var m := ResolveReferences(st, refs[..|refs| - 1]);
            var ref := refs[|refs| - 1];
            ResolveReferences(st, refs).Keys == if Resolvable(st, ref) then m.Keys + {ref.name} else m.Keys
  {
  }

  /** Never more names than references. */
  lemma {:induction false} ResolveReferencesBounded(st: Storage, refs: seq<ArtifactReferenceDto>)
    ensures |ResolveReferences(st, refs)| <= |refs|
  {
    if |refs| > 0 {
      ResolveReferencesBounded(st, refs[..|refs| - 1]);
      ResolveReferencesStep(st, refs);
    }
  }

  /** A reference whose target is missing leaves the map short. */
  lemma {:induction false} ResolveReferencesShortOnMissing(st: Storage, refs: seq<ArtifactReferenceDto>, k: nat)
    requires k < |refs| && !Resolvable(st, refs[k])
    ensures |ResolveReferences(st, refs)| < |refs|
  {
    var prefix := refs[..|refs| - 1];
    ResolveReferencesStep(st, refs);
    if k < |refs| - 1 {
      assert prefix[k] == refs[k];
      ResolveReferencesShortOnMissing(st, prefix, k);
    } else {
      ResolveReferencesBounded(st, prefix);
    }
  }

  /** The last reference repeating an earlier name leaves the map short. */
  lemma ResolveReferencesShortOnLastDuplicate(st: Storage, refs: seq<ArtifactReferenceDto>, i: nat)
    requires i < |refs| - 1 && refs[i].name == refs[|refs| - 1].name
    ensures |ResolveReferences(st, refs)| < |refs|
  {
    var prefix := refs[..|refs| - 1];
    ResolveReferencesStep(st, refs);
    assert prefix[i] == refs[i];
    if Resolvable(st, prefix[i]) {
      assert refs[i].name in ResolveReferences(st, prefix);
      ResolveReferencesBounded(st, prefix);
    } else {
      ResolveReferencesShortOnMissing(st, prefix, i);
    }
  }

  /** Two references sharing a name leave the map short. */
  lemma {:induction false} ResolveReferencesShortOnDuplicate(st: Storage, refs: seq<ArtifactReferenceDto>, i: nat, j: nat)
    requires i < j < |refs| && refs[i].name == refs[j].name
    ensures |ResolveReferences(st, refs)| < |refs|
  {
    if j < |refs| - 1 {
      var prefix := refs[..|refs| - 1];
      assert prefix[i] == refs[i] && prefix[j] == refs[j];
      ResolveReferencesShortOnDuplicate(st, prefix, i, j);
      ResolveReferencesStep(st, refs);
    } else {
      ResolveReferencesShortOnLastDuplicate(st, refs, i);
    }
  }

  /** With distinct names and every target present, there is one name per reference. */
  lemma {:induction false} ResolveReferencesComplete(st: Storage, refs: seq<ArtifactReferenceDto>)
    requires forall i :: 0 <= i < |refs| ==> Resolvable(st, refs[i])
    requires forall i, j :: 0 <= i < j < |refs| ==> refs[i].name != refs[j].name
    ensures |ResolveReferences(st, refs)| == |refs|
  {
    if |refs| > 0 {
      var prefix := refs[..|refs| - 1];
      var ref := refs[|refs| - 1];
      forall i | 0 <= i < |prefix|
        ensures Resolvable(st, prefix[i]) && prefix[i].name != ref.name
      {
        assert prefix[i] == refs[i];
      }
      forall i, j | 0 <= i < j < |prefix|
        ensures prefix[i].name != prefix[j].name
      {
        assert prefix[i] == refs[i] && prefix[j] == refs[j];
      }
      ResolveReferencesComplete(st, prefix);
      var m := ResolveReferences(st, prefix);
      assert ref.name !in m;
      assert Resolvable(st, ref);
      var row := GetArtifactVersion(st, ref.groupId, ref.artifactId, ref.version).value;
      assert ResolveReferences(st, refs) == m[ref.name := row.content];
    }
  }

  /** A resolvable last reference under another name leaves that name's entry
      as the earlier references resolved it. */
  lemma ResolveReferencesKeepsEntryPast(st: Storage, refs: seq<ArtifactReferenceDto>, name: string)
    requires |refs| > 0 && name in ResolveReferences(st, refs[..|refs| - 1])
    requires Resolvable(st, refs[|refs| - 1]) && refs[|refs| - 1].name != name
    ensures name in ResolveReferences(st, refs)
    ensures ResolveReferences(st, refs)[name] == ResolveReferences(st, refs[..|refs| - 1])[name]
  {
    var last := refs[|refs| - 1];
    var row := GetArtifactVersion(st, last.groupId, last.artifactId, last.version).value;
    assert ResolveReferences(st, refs) == ResolveReferences(st, refs[..|refs| - 1])[last.name := row.content];
  }

  /** A resolvable last reference maps its name to its target's content. */
  lemma ResolveReferencesTakesLast(st: Storage, refs: seq<ArtifactReferenceDto>)
    requires |refs| > 0 && Resolvable(st, refs[|refs| - 1])
    ensures refs[|refs| - 1].name in ResolveReferences(st, refs)
    ensures ResolveReferences(st, refs)[refs[|refs| - 1].name]
         == TargetContent(st, refs[|refs| - 1])
  {
  }

  /** An unresolvable last reference changes nothing. */
  lemma ResolveReferencesSkipsMissing(st: Storage, refs: seq<ArtifactReferenceDto>)
    requires |refs| > 0 && !Resolvable(st, refs[|refs| - 1])
    ensures ResolveReferences(st, refs) == ResolveReferences(st, refs[..|refs| - 1])
  {
  }

  /** A resolvable reference that no later resolvable reference renames over
      maps its name to its target version's content. */
  lemma {:induction false} ResolveReferencesValue(st: Storage, refs: seq<ArtifactReferenceDto>, i: nat)
    requires i < |refs| && Resolvable(st, refs[i])
    requires forall j :: i < j < |refs| && refs[j].name == refs[i].name ==> !Resolvable(st, refs[j])
    ensures refs[i].name in ResolveReferences(st, refs)
    ensures ResolveReferences(st, refs)[refs[i].name]
         == TargetContent(st, refs[i])
  {
    if i == |refs| - 1 {
      ResolveReferencesTakesLast(st, refs);
    } else {
      var prefix := refs[..|refs| - 1];
      assert prefix[i] == refs[i];
      forall j | i < j < |prefix| && prefix[j].name == prefix[i].name
        ensures !Resolvable(st, prefix[j])
      {
        assert prefix[j] == refs[j];
      }
      ResolveReferencesValue(st, prefix, i);
      if Resolvable(st, refs[|refs| - 1]) {
        ResolveReferencesKeepsEntryPast(st, refs, refs[i].name);
      } else {
        ResolveReferencesSkipsMissing(st, refs);
      }
    }
  }

  /** With distinct names, every resolvable reference maps its name to its
      target version's content. */
  lemma ResolveReferencesDistinctValues(st: Storage, refs: seq<ArtifactReferenceDto>)
    requires forall i, j :: 0 <= i < j < |refs| ==> refs[i].name != refs[j].name
    ensures forall i :: 0 <= i < |refs| && Resolvable(st, refs[i]) ==>
      refs[i].name in ResolveReferences(st, refs)
      && ResolveReferences(st, refs)[refs[i].name]
         == TargetContent(st, refs[i])
  {
    forall i | 0 <= i < |refs| && Resolvable(st, refs[i])
      ensures refs[i].name in ResolveReferences(st, refs)
      ensures ResolveReferences(st, refs)[refs[i].name]
           == TargetContent(st, refs[i])
    {
      ResolveReferencesValue(st, refs, i);
    }
  }

  /** Exact identity: same SHA-256 of the content and the same references. */
  predicate ExactMatch(env: Collaborators, row: VersionRow, content: string, refs: seq<ArtifactReferenceDto>) {
    env.sha256(row.content) == env.sha256(content) && row.references == refs
  }

  /** SHA-256 of the canonical form of stored content, if it canonicalizes. */
  function CanonicalDigest(env: Collaborators, st: Storage, row: VersionRow): Option<string> {
    match env.canonicalize(row.artifactType, row.content, ResolveReferences(st, row.references))
    case Parsed(c) => Some(env.sha256(c))
    case ParseFailure(_) => None
  }

  /** Canonical identity against an already canonicalized submission. */
  predicate CanonicalMatch(env: Collaborators, st: Storage, row: VersionRow, canonical: string, refs: seq<ArtifactReferenceDto>) {
    CanonicalDigest(env, st, row) == Some(env.sha256(canonical)) && row.references == refs
  }

  /** Content lookup: the first version of the artifact with the same exact
      (or canonical) identity. A miss is an artifact-not-found error; a
      submission the canonicalizer cannot parse surfaces as that type's parse
      failure. */
  function GetVersionMetaDataByContent(
    st: Storage, env: Collaborators, groupId: GroupId, artifactId: string,
    canonical: bool, content: string, refs: seq<ArtifactReferenceDto>): (r: Result<MetaData>)
    ensures r.Err? ==> r.error == ArtifactNotFound(groupId, artifactId) || r.error.SchemaParse? || r.error.ContentInvalid?
    ensures ArtifactKey(groupId, artifactId) !in st.artifacts ==> r == Err(ArtifactNotFound(groupId, artifactId))
    // Exact identity: found if and only if some version matches, and never a parse error.
    ensures !canonical ==> r.Err? ==> r.error == ArtifactNotFound(groupId, artifactId)
    ensures !canonical && ArtifactKey(groupId, artifactId) in st.artifacts ==>
      (r.Ok? <==> exists i :: 0 <= i < |Versions(st, ArtifactKey(groupId, artifactId))|
                    && ExactMatch(env, Versions(st, ArtifactKey(groupId, artifactId))[i], content, refs))
    ensures r.Ok? && !canonical ==>
      exists row :: row in Versions(st, ArtifactKey(groupId, artifactId)) && ExactMatch(env, row, content, refs) && r.value == MetaOf(row)
    // Canonical identity: a submission that does not canonicalize is the
    // artifact type's parse failure, an Avro parse exception only for Avro;
    // otherwise found if and only if some version's canonical digest matches.
    ensures canonical && ArtifactKey(groupId, artifactId) in st.artifacts ==>
      var artifactType := st.artifacts[ArtifactKey(groupId, artifactId)].artifactType;
      var submitted := env.canonicalize(artifactType, content, ResolveReferences(st, refs));
      && (submitted.ParseFailure? && artifactType == AVRO ==> r == Err(SchemaParse(submitted.message)))
      && (submitted.ParseFailure? && artifactType != AVRO ==> r == Err(ContentInvalid(artifactType, submitted.message)))
      && (submitted.Parsed? ==>
            (r.Ok? <==> exists i :: 0 <= i < |Versions(st, ArtifactKey(groupId, artifactId))|
                          && CanonicalMatch(env, st, Versions(st, ArtifactKey(groupId, artifactId))[i], submitted.content, refs)))
  {
    var key := ArtifactKey(groupId, artifactId);
    if key !in st.artifacts then Err(ArtifactNotFound(groupId, artifactId))
    else if !canonical then
      match FirstWhere(Versions(st, key), (row: VersionRow) => ExactMatch(env, row, content, refs))
      case None => Err(ArtifactNotFound(groupId, artifactId))
      case Some(row) => Ok(MetaOf(row))
    else
      match env.canonicalize(st.artifacts[key].artifactType, content, ResolveReferences(st, refs))
      case ParseFailure(message) =>
        if st.artifacts[key].artifactType == AVRO then Err(SchemaParse(message))
        else Err(ContentInvalid(st.artifacts[key].artifactType, message))
      case Parsed(c) =>
        match FirstWhere(Versions(st, key), (row: VersionRow) => CanonicalMatch(env, st, row, c, refs))
        case None => Err(ArtifactNotFound(groupId, artifactId))
        case Some(row) => Ok(MetaOf(row))
  }

  // ---- writes ----

  /** Creates the artifact with its first version, labelled "1". */
  function CreateArtifact(
    st: Storage, groupId: GroupId, artifactId: string, artifactType: string,
    content: string, refs: seq<ArtifactReferenceDto>): (w: Write)
    requires ArtifactKey(groupId, artifactId) !in st.artifacts
    ensures ArtifactKey(groupId, artifactId) in w.storage.artifacts
    ensures w.storage.artifacts[ArtifactKey(groupId, artifactId)] == ArtifactRecord(artifactType, {})
    ensures w.meta.version == "1" && w.meta.state == ENABLED
  {
    var key := ArtifactKey(groupId, artifactId);
    var row := VersionRow(key, "1", st.nextGlobalId, artifactType, content, refs, ENABLED);
    Write(
      st.(artifacts := st.artifacts[key := ArtifactRecord(artifactType, {})],
          versions := st.versions + [row],
          nextGlobalId := st.nextGlobalId + 1),
      MetaOf(row))
  }

  /** Appends a version to an existing artifact, labelled one past its version count. */
  function UpdateArtifact(
    st: Storage, groupId: GroupId, artifactId: string, artifactType: string,
    content: string, refs: seq<ArtifactReferenceDto>): (w: Write)
    requires ArtifactKey(groupId, artifactId) in st.artifacts
    ensures w.storage.artifacts == st.artifacts
    ensures w.meta.version == IntToString(|Versions(st, ArtifactKey(groupId, artifactId))| + 1)
  {
    var key := ArtifactKey(groupId, artifactId);
    var nextLabel := IntToString(|Versions(st, key)| + 1);
    var row := VersionRow(key, nextLabel, st.nextGlobalId, artifactType, content, refs, ENABLED);
    Write(
      st.(versions := st.versions + [row], nextGlobalId := st.nextGlobalId + 1),
      MetaOf(row))
  }
}

=== FILE: types.dfy ===
/** Vocabulary shared by the Confluent-compatible resource layer: Java's nullable
    values, the registry's enums, its exceptions as one error datatype, the
    reference and metadata records, and the collaborators the layer calls out to. */
module Types {

  /** Java's 32-bit `int` range. */
  const INT_MIN: int := -0x8000_0000
  const INT_MAX: int := 0x7FFF_FFFF

  /** A Java `int` (or the value of a non-null `Integer`). */
  type Int32 = x: int | INT_MIN <= x <= INT_MAX

  /** A Java reference that may be null. */
  datatype Option<+T> = None | Some(value: T)

  /** A value, or the exception that was thrown instead of returning it. */
  datatype Result<+T> = Ok(value: T) | Err(error: Error)

  /** Group identifiers may be null; the null group is `None`. */
  type GroupId = Option<string>

  datatype ArtifactState = ENABLED | DISABLED | DEPRECATED

  datatype RuleType = VALIDITY | COMPATIBILITY | INTEGRITY

  datatype RuleApplicationType = CREATE | UPDATE

  /** How storage picks the version that stands for a whole artifact. */
  datatype RetrievalBehavior = DEFAULT | SKIP_DISABLED_LATEST

  /** What an unprocessable-entity error wraps: a violated rule or a message. */
  datatype UnprocessableReason = ViolatedRule(ruleType: RuleType) | Message(text: string)

  /** One constructor per exception class the resource layer throws or catches.
      `SchemaParse` stands for both SchemaParseException and AvroTypeException;
      `ContentInvalid` is another type's own parse failure, which the resource
      layer does not catch. */
  datatype Error =
    | ArtifactNotFound(groupId: GroupId, artifactId: string)
    | VersionNotFound(groupId: GroupId, artifactId: string, version: string)
    | RuleNotFound(ruleType: RuleType)
    | SchemaParse(message: string)
    | ContentInvalid(artifactType: string, message: string)
    | UnprocessableEntity(reason: UnprocessableReason)
    | Conflict(ruleType: RuleType)

  /** The artifact type names of the registry. */
  const AVRO: string := "AVRO"
  const PROTOBUF: string := "PROTOBUF"
  const JSON: string := "JSON"
  const OPENAPI: string := "OPENAPI"
  const ASYNCAPI: string := "ASYNCAPI"
  const GRAPHQL: string := "GRAPHQL"
  const KCONNECT: string := "KCONNECT"
  const WSDL: string := "WSDL"
  const XSD: string := "XSD"
  const XML: string := "XML"

  const ArtifactTypes: set<string> :=
    {AVRO, PROTOBUF, JSON, OPENAPI, ASYNCAPI, GRAPHQL, KCONNECT, WSDL, XSD, XML}

  /** A reference as a Confluent client sends it; `version` is a nullable Integer. */
  datatype SchemaReference = SchemaReference(name: string, subject: string, version: Option<Int32>)

  /** The storage layer's reference record. */
  datatype ArtifactReferenceDto =
    ArtifactReferenceDto(groupId: GroupId, artifactId: string, version: string, name: string)

  /** The REST bean form of a reference, handed to the rules service. */
  datatype ArtifactReference =
    ArtifactReference(name: string, groupId: GroupId, artifactId: string, version: string)

  /** Metadata of one stored version (also used for an artifact's metadata,
      which is that of the version standing for it). */
  datatype MetaData = MetaData(
    groupId: GroupId, artifactId: string, version: string,
    globalId: int, artifactType: string, state: ArtifactState)

  /** Outcome of a parser-backed content transformation. */
  datatype Parsed = Parsed(content: string) | ParseFailure(message: string)

  /** Everything the rules service is given when rules are applied. */
  datatype RuleRequest = RuleRequest(
    groupId: GroupId, artifactId: string, artifactType: string, content: string,
    applicationType: RuleApplicationType, references: seq<ArtifactReference>,
    resolvedReferences: map<string, string>)

  /** The code the resource layer calls but whose source is not modelled:
      SHA-256 as hex text, the type's canonicalizer, the Avro dereferencer,
      the rules service (the rule it found violated, if any) and the
      canonical-hash-mode configuration switch. */
  datatype Collaborators = Collaborators(
    sha256: string -> string,
    canonicalize: (string, string, map<string, string>) -> Parsed,
    dereference: (string, map<string, string>) -> Parsed,
    applyRules: RuleRequest -> Option<RuleType>,
    canonicalHashModeEnabled: bool)
}

=== FILE: versions.dfy ===
/** Turning a version string from a request path ("latest", "-1" or a number)
    into a stored version label. */
module VersionStrings {
  import opened Types
  import opened JavaText
  import opened RegistryStorage

  const LATEST: string := "latest"

  /** The label of the artifact's last version, which is what the registry
      reports as the artifact's version. */
  function LastLabel(st: Storage, key: ArtifactKey): string
    requires |Versions(st, key)| > 0
  {
    var vs := Versions(st, key);
    vs[|vs| - 1].version
  }

  /** getLatestArtifactVersionForSubject: the artifact's current version, with
      a missing artifact reported as version "latest" not being found. */
  function GetLatestArtifactVersionForSubject(st: Storage, subject: string, groupId: GroupId)
    : (r: Result<string>)
    ensures r.Ok? <==> ArtifactKey(groupId, subject) in st.artifacts && |Versions(st, ArtifactKey(groupId, subject))| > 0
    ensures r.Ok? ==> r.value == LastLabel(st, ArtifactKey(groupId, subject))
    ensures r.Err? ==> r.error == VersionNotFound(groupId, subject, LATEST)
  {
    match GetArtifactMetaData(st, groupId, subject, DEFAULT)
    case Ok(meta) => Ok(meta.version)
    case Err(_) => Err(VersionNotFound(groupId, subject, LATEST))
  }

  /** The version selected by a version string, before `then` is applied. */
  function ResolveVersionString(st: Storage, subject: string, versionString: string, groupId: GroupId)
    : (r: Result<string>)
    ensures versionString == LATEST ==> r == GetLatestArtifactVersionForSubject(st, subject, groupId)
    ensures ParseInt(versionString) == Some(-1) ==> r == GetLatestArtifactVersionForSubject(st, subject, groupId)
    ensures ParseInt(versionString).Some? && ParseInt(versionString).value >= 0 ==> r == Ok(versionString)
    ensures ParseInt(versionString).Some? && ParseInt(versionString).value < -1 ==>
      r == Err(ArtifactNotFound(None, "Illegal version format: " + versionString))
    ensures versionString != LATEST && ParseInt(versionString).None? ==>
      r == Err(VersionNotFound(groupId, subject, versionString))
  {
    if versionString == LATEST then GetLatestArtifactVersionForSubject(st, subject, groupId)
    else
      match ParseInt(versionString)
      case None => Err(VersionNotFound(groupId, subject, versionString))
      case Some(n) =>
        if n >= 0 then Ok(versionString)
        else if n == -1 then GetLatestArtifactVersionForSubject(st, subject, groupId)
        else Err(ArtifactNotFound(None, "Illegal version format: " + versionString))
  }

  /** parseVersionString: `andThen` (Java's `then` parameter) is applied once, to the resolved version, and
      is skipped when resolution fails. */
  function ParseVersionString<T>(
    st: Storage, subject: string, versionString: string, groupId: GroupId, andThen: string -> Result<T>)
    : (r: Result<T>)
    ensures ResolveVersionString(st, subject, versionString, groupId).Ok? ==>
      r == andThen(ResolveVersionString(st, subject, versionString, groupId).value)
    ensures ResolveVersionString(st, subject, versionString, groupId).Err? ==>
      r == Err(ResolveVersionString(st, subject, versionString, groupId).error)
  {
    match ResolveVersionString(st, subject, versionString, groupId)
    case Ok(version) => andThen(version)
    case Err(e) => Err(e)
  }

  /** Every non-negative `int`, written the Java way, names itself. */
  lemma ResolveNumericVersion(st: Storage, subject: string, n: int, groupId: GroupId)
    requires 0 <= n <= INT_MAX
    ensures ResolveVersionString(st, subject, IntToString(n), groupId) == Ok(IntToString(n))
  {
    ParseIntOfIntToString(n);
  }

  /** Every `int` below -1 is an artifact-not-found error, not a missing version. */
  lemma ResolveNegativeVersion(st: Storage, subject: string, n: int, groupId: GroupId)
    requires INT_MIN <= n < -1
    ensures ResolveVersionString(st, subject, IntToString(n), groupId)
         == Err(ArtifactNotFound(None, "Illegal version format: " + IntToString(n)))
  {
    ParseIntOfIntToString(n);
  }

  /** "-1" and "latest" select the same version, whatever the storage holds. */
  lemma MinusOneIsLatest(st: Storage, subject: string, groupId: GroupId)
    ensures ResolveVersionString(st, subject, "-1", groupId) == ResolveVersionString(st, subject, LATEST, groupId)
  {
    ParseIntOfIntToString(-1);
  }
}
